=== FILE: README.md ===
# Subscription bot command layer, modelled in Dafny

This project models the command layer of a subscription-reminder service. A
chat bot and a web dashboard send every command through one pipeline:

1. look the command up in a shared registry;
2. check the caller's role against the command's permissions;
3. check the number of arguments;
4. run the command's handler behind a barrier that turns an escaping
   exception into a failure response.

It also models the configuration the pipeline reads and the account helpers
around it:

- the subscription plans and the ranked user roles;
- the role-ranking test and the plan-expiry test of a logged-in user;
- the chat message parser;
- the record created for a chat user seen for the first time.

Modules, one per component:

- `Wrappers`: `Option` and `Result`.
- `Text`: the string functions Python supplies. These are `lower`, `upper`,
  whitespace `split` and `join`, `in`, `startswith`, slicing and `str(int)`.
- `Collections`: insertion-ordered dictionaries as association lists, and
  list comprehensions as `Filter` and `Map`.
- `Registry`: the command table, `get_command`, `get_all_commands`,
  `get_commands_for_role` and `validate_command_args`.
- `Plans`: `SUBSCRIPTION_PLANS` and `USER_ROLES`.
- `Records`: subscription documents, the caller's user record, the response
  envelope, the mail log, the environment and the exception kinds.
- `Handlers`: the nine `_handle_*` methods.
- `Processor`: `process_command`.
- `Accounts`: `User.has_role`, `User.is_plan_active` and `get_or_create_user`.
- `Gateway`: `parse_telegram_command`.
- `Properties`: lemmas that relate several operations.

Modelling choices:

- The database, the clock, the date parser, generated ids and the mail
  server become values. The subscription collection is a sequence of
  `(id, document)` in iteration order. The mail server is a log of the mails
  it accepted. `Env` carries today's day number, the current timestamp, a
  partial `%Y-%m-%d` parser, the id the next stored document receives, and
  whether the mail server accepts the next message.
- A document key that is absent is `None`. A `KeyError`, `ValueError` or
  `IndexError` a handler raises is a `Fault`. A handler that catches its own
  exceptions answers `Failed(fault)`.
- `_handle_start` has no `try`, so only its faults reach the barrier of
  `process_command`. The barrier answers `Crashed` with the exception text
  cut to 100 characters.
- A response keeps the kind of its message and its structured `data`, not
  the Markdown text.
- Display-only texts sit in tables of their own, keyed like the main tables:
  - the help material of each command (description, web component, help
    text, examples) is in `CommandHelp`;
  - the price label and features of each plan are in `PlanOffers`.

  No decision in the code reads these texts. An invalid-arguments response
  therefore carries the command's name, and the usage text and examples
  shown are `HelpOf(name)`.

Where the code departs from the documented behaviour of the service, the model
follows the code:

- `add` checks only the date format. It does not validate the email and
  accepts past dates.
- `add` accepts at most five arguments, so the amount it stores is a single
  token.
- A failed `delete` shows five id hints, not three.
- `stats` counts documents but does not sum amounts.
- The permission-denied message names no roles.
- `get_command` lower-cases the name but the handler lookup does not. A
  mixed-case name such as `LIST` passes every check and then ends in
  "handler not implemented" (`Processor.MixedCaseNameFindsNoHandler`).
- `forcedreminder` and `promote` are registered but have no handler
  (`Processor.UnhandledCommands`).

## Model

| member | source | states |
|---|---|---|
| `Registry.CommandTableWellFormed` | command_registry.py:32-145 | the table's keys are distinct, nonempty and lower case; each key is its definition's name; optional arguments come last |
| `Registry.HelpTableWellFormed` | command_registry.py:32-145 | every command has help material under its own name, with at least one example |
| `Registry.HelpOf` | command_registry.py:32-145 | help material exists exactly for the registered names, and it always lists an example |
| `Registry.DefinedCommandsHaveHelp` | command_registry.py:147-149 | every definition that lookup returns has help material |
| `Registry.FreeRoleVisibility` | command_registry.py:32-145 | role `free` may run every command except `sendreminder`, `stats`, `forcedreminder` and `promote` |
| `Registry.GetCommand` | command_registry.py:147-149 | lookup fails exactly when the lower-cased name is not a key; otherwise it returns the entry stored under that key, whose name is the lower-cased name |
| `Registry.AllCommands` | command_registry.py:151-153 | the full table: no repeated key, each entry is what lookup of its key returns, and every definition lookup finds is in it under its lower-cased name |
| `Registry.KnownCommand` | command_registry.py:147-153 | looking up a table key returns that key's definition |
| `Registry.CommandsForRole` | command_registry.py:155-157 | the result holds exactly the table entries whose permissions list the role, with no key twice, in table order |
| `Collections.FilterKeepsOrder` | command_registry.py:157 | a comprehension keeps the entries it selects in their original order |
| `Collections.FilterKeepsKeysDistinct` | command_registry.py:157 | a comprehension over a dictionary without repeated keys repeats no key |
| `Collections.SubsequenceKeys` | command_processor.py:345 | the keys of a sub-dictionary taken in order are the table's keys taken in the same order |
| `Registry.CommandsForRoleIsSubMap` | command_registry.py:155-157 | each entry of a role's commands is what lookup of its key returns |
| `Registry.ArgsPartition` | command_registry.py:165-166 | the required and optional argument lists split the argument specification |
| `Registry.ValidateArgs` | command_registry.py:159-175 | unknown command iff lookup fails; missing arguments, listing the required ones, iff fewer than the required count; too many, reporting the declared count as the maximum, iff more than that count when it is nonzero; valid otherwise |
| `Registry.ValidIffWithinArity` | command_registry.py:159-175 | for a command declaring k required and m optional arguments (k + m > 0), validation passes iff k <= count <= k + m |
| `Registry.ZeroArgCommandsIgnoreExtras` | command_registry.py:171-173 | a command that declares no arguments accepts any number of tokens |
| `Plans.PlanTableWellFormed` | main.py:33-76 | the plan keys, in order, are free, basic, premium, enterprise, monthly_unlimited and yearly_unlimited, with no key repeated |
| `Plans.OfferTableWellFormed` | main.py:33-76 | every plan has a price label and at least one feature, listed in plan order |
| `Plans.PlanKeysLowerCase` | main.py:33-76 | plan keys are nonempty and lower case, so a lower-cased lookup finds them |
| `Plans.UnlimitedPlans` | main.py:33-76 | exactly the two unlimited plans carry the quota 999999; every other quota is positive and below it |
| `Plans.FreePlanTerms` | main.py:34-40 | the free plan allows 5 subscriptions and never expires |
| `Plans.Rank` | main.py:79-85 | a role's rank lies in 0..5; it is 0 exactly for a name that is not a role; a positive rank is the table's value |
| `Plans.RoleRanks` | main.py:79-85 | free, user, manager, admin and owner rank 1 to 5 |
| `Accounts.RoleRank` | main.py:125-126 | the rank of the user's role is its `USER_ROLES` rank, and 0 exactly when the role is missing or unknown |
| `Accounts.HasRole` | main.py:125-126 | an unknown required role is always held; a user without a known role holds only unknown roles; the owner holds every role |
| `Accounts.HasRoleFollowsTableOrder` | main.py:79-126 | between two named roles, holding one means being listed no later in the role table |
| `Accounts.RankOfListed` | main.py:79-85 | the role at position i of the table ranks 5 - i |
| `Accounts.HasRoleReflexive` | main.py:125-126 | every user holds its own role |
| `Accounts.HasRoleTransitive` | main.py:125-126 | holding a role that itself holds a lower one means holding the lower one |
| `Accounts.IsPlanActive` | main.py:128-131 | a plan without an expiry date or on the free plan is active; otherwise it is active iff now is before the expiry |
| `Accounts.ActivityOnlyLapses` | main.py:128-131 | a plan active now was active earlier, and a paid plan with an expiry stays lapsed once that date is reached |
| `Accounts.DisplayName` | main.py:189 | a nonempty username is kept; otherwise the name is `User_` followed by the text of the chat id |
| `Text.IntToString` | main.py:189 | `str` of an integer: a minus sign exactly for a negative number, then nonempty decimal digits without leading zeros whose value is the magnitude |
| `Accounts.FreeUniqueId` | main.py:185 | the id is `FREE` followed by the first eight characters of the uuid text (all of it when shorter), each upper-cased |
| `Accounts.NewUser` | main.py:185-197 | the new record has role and plan `free`, the free plan's quota, no expiry, is active, and carries the chat id, the `FREE` unique id built from the uuid, and the username or its `User_` fallback |
| `Accounts.GetOrCreateUser` | main.py:176-203 | without a database: nothing; with a user for the chat: the first such user and no change; otherwise one new free user appended and its id returned |
| `Accounts.GetOrCreateUserIdempotent` | main.py:176-203 | a second call for the same chat returns the same id and creates nothing |
| `Accounts.NewUserIsActiveFreeAccount` | main.py:185-197 | an auto-created user holds `free` but not `user`, and its plan is active at any time |
| `Gateway.ParseCommand` | main.py:221-229 | a message without a leading `/` is not a command; a slash followed only by whitespace raises the missing-name error; a parsed name is one lower-case word and every argument is a word |
| `Gateway.ParseRoundTrip` | main.py:221-229 | parsing `/name arg1 ... argn` gives back the lower-cased name and the arguments in order |
| `Gateway.LeadingSpaceIgnored` | main.py:226 | whitespace between the slash and the name is skipped |
| `Text.SplitJoinSpace` | main.py:226 | splitting words joined by single spaces gives back the words |
| `Text.SplitEmptyIffBlank` | main.py:226-227 | splitting yields no word exactly when the text is all whitespace |
| `Text.SplitSkipsLeadingSpace` | main.py:226 | any whitespace character before the text is dropped by the split |
| `Text.SplitWordThenSpace` | main.py:226 | a word followed by any whitespace character is the first token, and the rest is split on its own |
| `Text.SplitOneWord` | main.py:226 | a text that is a single word splits into that word |
| `Text.LowerIdempotent` | command_registry.py:149 | lower-casing gives a lower-case text, and doing it twice changes nothing |
| `Text.ContainsIffOccurs` | command_processor.py:257 | substring search succeeds exactly when the query occurs at some position |
| `Text.Truncate` | command_processor.py:60 | a cut text is the prefix of the original that is n characters long, or the whole text when it is no longer than n |
| `Records.Classify` | command_processor.py:111-116 | expired iff the days left are negative; expiring soon iff 0..threshold; active iff beyond the threshold |
| `Collections.FirstIndex` | command_processor.py:203-207 | the first position satisfying the test, or none when no element does |
| `Handlers.Owned` | command_processor.py:89-90 | the caller's documents are exactly the stored ones carrying the caller's chat id |
| `Handlers.HandleStart` | command_processor.py:64-84 | succeeds iff the plan type is a known plan and the id and quota keys are present; welcomes with the plan's name and redirects to the dashboard; a missing plan type raises a `KeyError` |
| `Handlers.HandleList` | command_processor.py:86-136 | no documents: an empty success; success iff every document has a parseable expiry and its service, username and email; it lists the caller's documents with statuses that warn 3 days ahead |
| `Handlers.HandleAdd` | command_processor.py:138-190 | fewer than 4 arguments, a bad date or a reached quota fail and change nothing; otherwise one document holding the arguments is appended under the generated id |
| `Handlers.RemoveId` | command_processor.py:219 | the result keeps exactly the documents whose id differs |
| `Handlers.IdHints` | command_processor.py:210 | one hint for each of the caller's first five ids, in order, each the first 8 characters of its id (the whole id when shorter) |
| `Handlers.HandleDelete` | command_processor.py:192-232 | succeeds iff some caller id starts with the argument; it removes the first such document and reports it; otherwise it reports the hints and changes nothing |
| `Handlers.HandleSearch` | command_processor.py:234-303 | fails iff a matching document lacks a displayed key; a success returns the caller's documents that contain the lower-cased keyword, with week-ahead statuses |
| `Handlers.SearchFindsExactlyMatches` | command_processor.py:249-283 | a successful search returns exactly the matching documents, each with its week-ahead status or UNKNOWN |
| `Handlers.VisibleIffListed` | command_registry.py:155-157 | a name is among a role's commands exactly when the role may run that command |
| `Handlers.HandleHelp` | command_processor.py:305-352 | help for a name succeeds iff the caller's role may run it, with that command's definition; without a name the answer is the role's help index |
| `Handlers.HelpIndex` | command_processor.py:337-345 | the index names exactly the commands the role may run, each once, in table order |
| `Handlers.TallyStatuses` | command_processor.py:360-380 | the counts equal the documents expired, due within 7 days and later; they add up to the total exactly when every expiry parses |
| `Handlers.HandleStats` | command_processor.py:354-420 | succeeds iff the plan type is known and the id, role and quota keys are present; reports those counts and the caller's plan |
| `Handlers.HandleSendReminder` | command_processor.py:422-476 | nothing due: success without mail; otherwise one mail to the first due document's address listing every due document, or a failure that sends nothing |
| `Handlers.HandleUpgrade` | command_processor.py:478-522 | with a plan name: success iff it is a plan key, showing that plan; without: every plan and the current plan type; no plan is changed |
| `Processor.CrashResponse` | command_processor.py:58-62 | the barrier's failure text is the first 100 characters of the exception text, or all of it when shorter |
| `Processor.Dispatch` | command_processor.py:48-51 | only `add` and `delete` change the store and only `sendreminder` the mail log; only `start` can crash |
| `Processor.ProcessCommand` | command_processor.py:21-62 | an unknown command or a refused role changes nothing; a wrong argument count answers with the diagnostic and the command's name and changes nothing; a command that passes all three checks and has a handler gets that handler's answer; "not implemented" only for a registered name without a handler; only three commands change state |
| `Processor.PermissionDeniedIff` | command_processor.py:32-38 | for a known command, the answer is "permission denied" iff the permissions omit the caller's role (absent role counts as `free`) |
| `Processor.InvalidArgumentsCarryUsage` | command_processor.py:40-46 | a wrong argument count changes nothing and answers with the diagnostic and the command's usage, which has examples |
| `Processor.HandlerRunsOnlyAfterChecks` | command_processor.py:24-51 | any answer past the three checks means the command is known, the role permitted and the arguments valid |
| `Processor.NoHandlerMeansNotImplemented` | command_processor.py:48-56 | a command that passes the checks but has no handler answers "not implemented" and changes nothing |
| `Processor.UnhandledCommands` | command_processor.py:48-56 | `forcedreminder` and a two-argument `promote` from an admin end in "not implemented" |
| `Processor.MixedCaseNameFindsNoHandler` | command_processor.py:25-50 | a name that is not lower case passes lookup yet finds no handler |
| `Processor.CrashesComeFromStart` | command_processor.py:58-84 | every crash comes from `start` and carries its exception text cut to 100 characters |
| `Properties.OwnedAppend` | command_processor.py:177 | storing a document adds it to the caller's view iff it carries the caller's chat id |
| `Properties.RemoveUniqueId` | command_processor.py:219 | with unique ids, deleting by an id removes exactly that one document |
| `Properties.AddThenListShowsRecord` | command_processor.py:86-190 | after `add`, `list` shows the earlier documents and then the new one, whose status comes from the given expiry date |
| `Properties.AddThenDeleteRestores` | command_processor.py:138-232 | deleting by the id `add` returned removes that document and restores the collection |
| `Properties.DeleteRemovesExactlyOne` | command_processor.py:192-232 | with unique ids, a successful delete removes one caller document whose id starts with the argument |
| `Properties.StatsExpiringMatchesReminder` | command_processor.py:367-441 | the reminder covers as many documents as `stats` counts as expiring |
| `Properties.DueIffWeekWarning` | command_processor.py:273-283 | due, past and beyond a week are exactly the three week-ahead statuses |
| `Properties.ThresholdsNest` | command_processor.py:111-116 | the 3-day and 7-day classifications disagree exactly for 4 to 7 days left |
| `Properties.EmptyKeywordFindsAll` | command_processor.py:249-259 | an empty keyword finds all the caller's documents |
| `Properties.HelpIndexEntriesResolve` | command_processor.py:305-352 | every name in the help index can be asked about, and help then describes its table entry |
| `Properties.PlanIndexKeysResolve` | command_processor.py:478-516 | every plan key asked about shows that plan |
| `Properties.FreshUserCanStart` | command_processor.py:21-84 | an auto-created user's `start` welcomes them to the free plan and changes nothing |
| `Properties.FreshUserPermissions` | command_processor.py:32-38 | an auto-created user is refused exactly `sendreminder`, `stats`, `forcedreminder` and `promote` |
| `Properties.FreeRoleExcluded` | command_registry.py:86-145 | the commands whose permissions omit `free` are those four |
| `Properties.AddAmountIsOneToken` | command_processor.py:141-142 | a successful `add` had 4 or 5 arguments, and the stored amount is the fifth or "0" |
| `Properties.AddedAmount` | command_processor.py:142 | with at most five arguments the amount is the fifth argument or "0" |
| `Properties.AddReachesHandler` | command_processor.py:21-51 | a successful `add` passed validation and is its handler's answer |
| `Properties.AddResolves` | command_registry.py:53-64 | `add` resolves to its table entry |
| `Properties.AddArgumentCount` | command_registry.py:159-175 | `add` validates if and only if it gets 4 or 5 arguments |
| `Properties.AddArity` | command_registry.py:56 | `add` declares five arguments, four of them required |
| `Properties.UnhandledNames` | command_processor.py:48-56 | only `forcedreminder` and `promote` are registered without a handler |
| `Properties.ParsedNamesFindTheirHandler` | main.py:221-229 | a parsed chat command reaches "not implemented" only for `forcedreminder` or `promote` |
| `Properties.LowerCaseNameIsKey` | command_registry.py:147-149 | a lower-case name that lookup resolves is a table key |

## Left out

- The Flask routes, the login flow, `load_user`, the web templates, the
  Telegram webhook service and the process launcher. They are outside the
  command layer, and they are I/O.
- Firestore is left out: queries become filters over a sequence. Documents
  that lack the `telegram_chat_id` key are not distinguished from a stored
  null.
- Exceptions that Firestore itself raises inside `get_or_create_user` are
  not modelled.
- The Markdown text of every message. Only the message kind and the
  structured data are modelled.
- `str.lower`/`str.upper` act on ASCII letters only. Python maps all of
  Unicode.
- `Records.ErrorText` quotes a `KeyError` key with plain single quotes. It
  does not reproduce `repr` escaping.
- The text of a mail-server failure is a fixed string. The real text comes
  from the mail library.
- The `created_at` values are the timestamp `Env.now`, not a `datetime`.
- The Telegram parse mode of a response is always Markdown, so it is
  omitted.
- The race between counting a user's documents and storing a new one in
  `add` is not modelled: each call is atomic.
- A stored null is not modelled. An absent key and a key that holds null
  are both `None`, and each field falls back to the default of `get`. Python
  tells them apart for several fields. A null `role` makes
  `get('role', 'free')` return `None`, so every command is refused
  (command_processor.py:33-34); the model treats the user as `free`. A null
  `max_subscriptions` makes the quota comparison raise `TypeError` in `add`
  (command_processor.py:157-158); the model uses 5. A null `username` makes
  search raise `AttributeError` on `.lower()` (command_processor.py:253); the
  model searches the empty text. A null `service` prints as `None` in the
  list (command_processor.py:118); the model fails with a missing key.
- HandleAdd: a new document goes last in storage order. Firestore's
  `.add()` picks a random document id, and an unordered query streams
  documents by id (command_processor.py:103, 162-170), so the new document
  can appear anywhere. The same assumption shapes `GetOrCreateUser`, which
  appends the new user.
- AddThenListShowsRecord: the new row comes after the earlier rows only
  because `HandleAdd` appends. The real listing may show it at any position
  among them.
- GetOrCreateUser: the user it returns is the first match in storage order,
  which stands for the order in which Firestore streams the query.

=== FILE: accounts.dfy ===
/**
 * The account helpers of the web application: the role ranking test and
 * the plan-expiry test of the logged-in user, and the record a chat user
 * receives when the bot first meets them.
 */
module Accounts {
  import opened Wrappers
  import opened Text
  import opened Collections
  import opened Plans
  import opened Records

  /** The fields of the logged-in user that the role and plan tests read.
      `None` is Python's `None`. */
  datatype Account = Account(role: Option<string>, planType: Option<string>, expiryDate: Option<int>)

  /** `USER_ROLES.get(role, 0)` for a role that may be `None`. */
  function RoleRank(role: Option<string>): (n: int)
    ensures 0 <= n <= 5
    ensures n == 0 <==> role.None? || role.value !in Keys(UserRoles)
    ensures role.Some? ==> n == Rank(role.value)
  {
    match role
    case None => 0
    case Some(r) => Rank(r)
  }

  /** `User.has_role`: the user's rank is at least the required role's rank. */
  function HasRole(a: Account, required: string): (b: bool)
    ensures required !in Keys(UserRoles) ==> b
    ensures RoleRank(a.role) == 0 ==> (b <==> required !in Keys(UserRoles))
    ensures a.role == Some("owner") ==> b
  {
    RoleRanks();
    RoleRank(a.role) >= Rank(required)
  }

  /** A named role outranks another when it is listed no later in
      `USER_ROLES`, which lists the roles from highest to lowest. */
  ghost predicate ListedNoLater(r: string, required: string) {
    exists i, j :: 0 <= i <= j < |UserRoles| && UserRoles[i].0 == r && UserRoles[j].0 == required
  }

  /** For two named roles, `has_role` is the order in which `USER_ROLES`
      lists them. */
  lemma HasRoleFollowsTableOrder(a: Account, required: string)
    requires a.role.Some? && a.role.value in Keys(UserRoles)
    requires required in Keys(UserRoles)
    ensures HasRole(a, required) <==> ListedNoLater(a.role.value, required)
  {
    var r := a.role.value;
    var i :| 0 <= i < |UserRoles| && UserRoles[i].0 == r;
    var j :| 0 <= j < |UserRoles| && UserRoles[j].0 == required;
    RankOfListed(i);
    RankOfListed(j);
    if ListedNoLater(r, required) {
      var i', j' :| 0 <= i' <= j' < |UserRoles| && UserRoles[i'].0 == r && UserRoles[j'].0 == required;
      RankOfListed(i');
      RankOfListed(j');
    }
  }

  /** The role listed at position `i` of `USER_ROLES` has rank `5 - i`. */
  lemma RankOfListed(i: int)
    requires 0 <= i < |UserRoles|
    ensures Rank(UserRoles[i].0) == 5 - i
  {
    RoleRanks();
    if i == 0 { assert UserRoles[i].0 == "owner"; }
    else if i == 1 { assert UserRoles[i].0 == "admin"; }
    else if i == 2 { assert UserRoles[i].0 == "manager"; }
    else if i == 3 { assert UserRoles[i].0 == "user"; }
    else { assert UserRoles[i].0 == "free"; }
  }

  /** Every user has its own role. */
  lemma HasRoleReflexive(a: Account)
    requires a.role.Some?
    ensures HasRole(a, a.role.value)
  {
  }

  /** Role ranks chain: a user holding role `mid`, when `mid` itself holds
      `low`, holds `low`. */
  lemma HasRoleTransitive(a: Account, mid: string, low: string)
    requires HasRole(a, mid)
    requires HasRole(a.(role := Some(mid)), low)
    ensures HasRole(a, low)
  {
  }

  /** `User.is_plan_active`: no expiry date, or the free plan, or not yet expired. */
  function IsPlanActive(a: Account, now: int): (b: bool)
    ensures a.expiryDate.None? ==> b
    ensures a.planType == Some("free") ==> b
    ensures a.expiryDate.Some? && a.planType != Some("free") ==> (b <==> now < a.expiryDate.value)
  {
    a.expiryDate.None? || a.planType == Some("free") || now < a.expiryDate.value
  }

  /** A plan that is active now was active at every earlier moment, and a
      paid plan with an expiry date lapses for good once that date is reached. */
  lemma ActivityOnlyLapses(a: Account, earlier: int, later: int)
    requires earlier <= later
    ensures IsPlanActive(a, later) ==> IsPlanActive(a, earlier)
    ensures a.expiryDate.Some? && a.planType != Some("free") && later >= a.expiryDate.value
      ==> !IsPlanActive(a, later)
  {
  }

  // ------------------------------------------------------- get_or_create_user

  /** What `get_or_create_user` returns (a user document id or `None`) and
      the user collection afterwards. */
  datatype Outcome = Outcome(userId: Option<string>, users: seq<(string, UserData)>)

  /** The query `telegram_chat_id == chat_id`. */
  function ChatIs(chatId: Option<ChatId>): ((string, UserData)) -> bool {
    (u: (string, UserData)) => u.1.chatId == chatId
  }

  /** `username or f"User_{chat_id}"`: an empty or absent username falls back. */
  function DisplayName(chatId: Option<ChatId>, username: Option<string>): (r: string)
    ensures username.Some? && username.value != "" ==> r == username.value
    ensures username.None? || username.value == "" ==>
      StartsWith(r, "User_") && r[5..] == ChatIdText(chatId)
  {
    if username.Some? && username.value != "" then username.value
    else "User_" + ChatIdText(chatId)
  }

  /** `str(chat_id)`: the decimal text of the chat id, or `None`. */
  function ChatIdText(chatId: Option<ChatId>): string {
    match chatId
    case None => "None"
    case Some(c) => IntToString(c)
  }

  /** `f"FREE{str(uuid.uuid4())[:8].upper()}"`, from the generated uuid text. */
  function FreeUniqueId(uuidText: string): (r: string)
    ensures StartsWith(r, "FREE")
    ensures |r| == 4 + if |uuidText| <= 8 then |uuidText| else 8
    ensures forall i :: 0 <= i < |r| - 4 ==> r[4 + i] == UpperChar(uuidText[i])
  {
    "FREE" + Upper(Truncate(uuidText, 8))
  }

  /** The record written for a chat user seen for the first time. */
  function NewUser(chatId: Option<ChatId>, username: Option<string>, uuidText: string, now: int): (u: UserData)
    ensures u.role == Some("free") && u.planType == Some("free")
    ensures u.maxSubscriptions == Some(FreePlan.maxSubscriptions)
    ensures u.expiryDate.None? && u.isActive == Some(true)
    ensures u.chatId == chatId
    ensures u.uniqueId == Some(FreeUniqueId(uuidText))
    ensures u.telegramUsername == Some(DisplayName(chatId, username))
  {
    var plan := Get(SubscriptionPlans, "free").value;
    UserData(
      uniqueId := Some(FreeUniqueId(uuidText)),
      telegramUsername := Some(DisplayName(chatId, username)),
      chatId := chatId,
      planType := Some("free"),
      role := Some("free"),
      maxSubscriptions := Some(plan.maxSubscriptions),
      isActive := Some(true),
      expiryDate := None,
      createdAt := Some(now),
      createdVia := Some("telegram_auto"))
  }

  /**
   * `get_or_create_user`: without a database, nothing; otherwise the id of
   * the first user whose chat id matches, or else the id of one new free
   * user appended to the collection. `newDocId` is the id the store
   * generates, `uuidText` the text of the generated uuid.
   */
  function GetOrCreateUser(users: seq<(string, UserData)>, dbAvailable: bool, chatId: Option<ChatId>,
                           username: Option<string>, newDocId: string, uuidText: string, now: int): (r: Outcome)
    ensures !dbAvailable ==> r == Outcome(None, users)
    ensures dbAvailable && (exists i :: 0 <= i < |users| && users[i].1.chatId == chatId) ==>
      r.users == users && r.userId.Some? &&
      exists i :: 0 <= i < |users| && users[i].1.chatId == chatId && r.userId.value == users[i].0 &&
        forall j :: 0 <= j < i ==> users[j].1.chatId != chatId
    ensures dbAvailable && (forall i :: 0 <= i < |users| ==> users[i].1.chatId != chatId) ==>
      r.userId == Some(newDocId) && |r.users| == |users| + 1 && r.users[..|users|] == users &&
      r.users[|users|] == (newDocId, NewUser(chatId, username, uuidText, now))
  {
    if !dbAvailable then Outcome(None, users)
    else match FirstIndex(users, ChatIs(chatId))
      case Some(i) => Outcome(Some(users[i].0), users)
      case None =>
        Outcome(Some(newDocId), users + [(newDocId, NewUser(chatId, username, uuidText, now))])
  }

  /** A second call for the same chat finds the user the first call
      returned and creates nothing. */
  lemma GetOrCreateUserIdempotent(users: seq<(string, UserData)>, chatId: Option<ChatId>,
                                  username: Option<string>, newDocId: string, uuidText: string, now: int,
                                  username2: Option<string>, newDocId2: string, uuidText2: string, now2: int)
    ensures var first := GetOrCreateUser(users, true, chatId, username, newDocId, uuidText, now);
      GetOrCreateUser(first.users, true, chatId, username2, newDocId2, uuidText2, now2) == first
  {
    if FirstIndex(users, ChatIs(chatId)).None? {
      FirstIndexOfAppended(users, (newDocId, NewUser(chatId, username, uuidText, now)), ChatIs(chatId));
    }
  }

  /** An auto-created user ranks as `free`, holds no higher role, and its
      plan never lapses. */
  lemma NewUserIsActiveFreeAccount(chatId: Option<ChatId>, username: Option<string>, uuidText: string,
                                   now: int, later: int)
    ensures var u := NewUser(chatId, username, uuidText, now);
      var a := Account(u.role, u.planType, u.expiryDate);
      && IsPlanActive(a, later)
      && HasRole(a, "free") && !HasRole(a, "user")
  {
    RoleRanks();
  }
}

=== FILE: collections.dfy ===
/**
 * Python dictionaries (which keep insertion order) as association lists, and
 * the list comprehensions the command layer uses, as functions on sequences.
 */
module Collections {
  import opened Wrappers

  /** `list(d.keys())`. */
  function Keys<V>(t: seq<(string, V)>): (ks: seq<string>)
    ensures |ks| == |t|
    ensures forall i :: 0 <= i < |t| ==> ks[i] == t[i].0
  {
    if t == [] then [] else [t[0].0] + Keys(t[1..])
  }

  /** A well-formed dictionary: no key twice. */
  predicate DistinctKeys<V>(t: seq<(string, V)>) {
    forall i, j :: 0 <= i < j < |t| ==> t[i].0 != t[j].0
  }

  /** `d.get(k)`: the value of the first entry under `k`, if any. */
  function Get<V>(t: seq<(string, V)>, k: string): (r: Option<V>)
    ensures r.None? <==> k !in Keys(t)
    ensures r.Some? ==> (k, r.value) in t
  {
    if t == [] then None
    else if t[0].0 == k then Some(t[0].1)
    else Get(t[1..], k)
  }

  /** In a dictionary without repeated keys, `Get` finds every stored entry. */
  lemma {:induction false} GetStored<V>(t: seq<(string, V)>, k: string, v: V)
    requires DistinctKeys(t)
    requires (k, v) in t
    ensures Get(t, k) == Some(v)
  {
    if t[0] != (k, v) {
      var i :| 0 <= i < |t| && t[i] == (k, v);
      assert i > 0;
      assert t[0].0 != k;
      assert t[1..][i - 1] == (k, v);
      GetStored(t[1..], k, v);
    }
  }

  /** `[x for x in s if p(x)]`. */
  function Filter<T>(s: seq<T>, p: T -> bool): (r: seq<T>)
    ensures |r| <= |s|
    ensures forall i :: 0 <= i < |r| ==> r[i] in s && p(r[i])
    ensures forall i :: 0 <= i < |s| && p(s[i]) ==> s[i] in r
  {
    if s == [] then [] else (if p(s[0]) then [s[0]] else []) + Filter(s[1..], p)
  }

  /** `r` is `s` with some entries left out and the others in their order. */
  ghost predicate SubsequenceOf<T>(r: seq<T>, s: seq<T>)
    decreases |s|
  {
    if r == [] then true
    else if s == [] then false
    else (r[0] == s[0] && SubsequenceOf(r[1..], s[1..])) || SubsequenceOf(r, s[1..])
  }

  /** A comprehension keeps the entries it selects in their original order. */
  lemma {:induction false} FilterKeepsOrder<T>(s: seq<T>, p: T -> bool)
    ensures SubsequenceOf(Filter(s, p), s)
  {
    if s != [] {
      var t := Filter(s[1..], p);
      FilterKeepsOrder(s[1..], p);
      if p(s[0]) {
        assert Filter(s, p)[1..] == t;
      } else {
        assert Filter(s, p) == t;
      }
    }
  }

  /** A comprehension over a dictionary without repeated keys yields none. */
  lemma {:induction false} FilterKeepsKeysDistinct<V>(s: seq<(string, V)>, p: ((string, V)) -> bool)
    requires DistinctKeys(s)
    ensures DistinctKeys(Filter(s, p))
  {
    if s != [] {
      var t := Filter(s[1..], p);
      assert DistinctKeys(s[1..]) by {
        forall i, j | 0 <= i < j < |s[1..]|
          ensures s[1..][i].0 != s[1..][j].0
        {
          assert s[1..][i] == s[i + 1] && s[1..][j] == s[j + 1];
        }
      }
      FilterKeepsKeysDistinct(s[1..], p);
      if p(s[0]) {
        forall j | 0 <= j < |t|
          ensures s[0].0 != t[j].0
        {
          var c :| 0 <= c < |s[1..]| && s[1..][c] == t[j];
          assert s[c + 1] == t[j];
        }
        assert Filter(s, p) == [s[0]] + t;
      } else {
        assert Filter(s, p) == t;
      }
    }
  }

  /** Leaving entries out of a dictionary leaves their keys out of its key list. */
  lemma {:induction false} SubsequenceKeys<V>(r: seq<(string, V)>, s: seq<(string, V)>)
    requires SubsequenceOf(r, s)
    ensures SubsequenceOf(Keys(r), Keys(s))
    decreases |s|
  {
    if r != [] {
      assert Keys(r)[1..] == Keys(r[1..]);
      assert Keys(s)[1..] == Keys(s[1..]);
      if r[0] == s[0] && SubsequenceOf(r[1..], s[1..]) {
        SubsequenceKeys(r[1..], s[1..]);
      } else {
        SubsequenceKeys(r, s[1..]);
      }
    }
  }

  /** Filtering distributes over concatenation, so it keeps relative order. */
  lemma {:induction false} FilterAppend<T>(a: seq<T>, b: seq<T>, p: T -> bool)
    ensures Filter(a + b, p) == Filter(a, p) + Filter(b, p)
  {
    if a == [] {
      assert a + b == b;
    } else {
      assert (a + b)[0] == a[0];
      assert (a + b)[1..] == a[1..] + b;
      FilterAppend(a[1..], b, p);
    }
  }

  /** A filter that rejects nothing returns its input. */
  lemma {:induction false} FilterKeepsAll<T>(s: seq<T>, p: T -> bool)
    requires forall i :: 0 <= i < |s| ==> p(s[i])
    ensures Filter(s, p) == s
  {
    if s != [] {
      FilterKeepsAll(s[1..], p);
    }
  }

  /** A filter that rejects exactly the element at position `k` drops that element. */
  lemma FilterDropsOne<T>(s: seq<T>, k: int, p: T -> bool)
    requires 0 <= k < |s|
    requires !p(s[k])
    requires forall i :: 0 <= i < |s| && i != k ==> p(s[i])
    ensures Filter(s, p) == s[..k] + s[k + 1..]
  {
    KeepsAround(s, k, p);
    FilterSplice(s[..k], s[k], s[k + 1..], p);
    SplitAt(s, k);
  }

  /** A sequence is what comes before position `k`, the element there, and the rest. */
  lemma SplitAt<T>(s: seq<T>, k: int)
    requires 0 <= k < |s|
    ensures s == s[..k] + ([s[k]] + s[k + 1..])
  {
  }

  /** Filtering `a + [x] + b` when it keeps `a` and `b` whole and rejects `x`. */
  lemma FilterSplice<T>(a: seq<T>, x: T, b: seq<T>, p: T -> bool)
    requires !p(x)
    requires Filter(a, p) == a && Filter(b, p) == b
    ensures Filter(a + ([x] + b), p) == a + b
  {
    DropsHead(x, b, p);
    FilterAppend(a, [x] + b, p);
  }

  /** The elements around a rejected one all pass the filter. */
  lemma KeepsAround<T>(s: seq<T>, k: int, p: T -> bool)
    requires 0 <= k < |s|
    requires forall i :: 0 <= i < |s| && i != k ==> p(s[i])
    ensures Filter(s[..k], p) == s[..k] && Filter(s[k + 1..], p) == s[k + 1..]
  {
    var before, after := s[..k], s[k + 1..];
    forall i | 0 <= i < |before| ensures p(before[i]) {
      assert before[i] == s[i];
    }
    FilterKeepsAll(before, p);
    forall i | 0 <= i < |after| ensures p(after[i]) {
      assert after[i] == s[k + 1 + i];
    }
    FilterKeepsAll(after, p);
  }

  /** A rejected first element is dropped. */
  lemma DropsHead<T>(x: T, t: seq<T>, p: T -> bool)
    requires !p(x)
    ensures Filter([x] + t, p) == Filter(t, p)
  {
    assert ([x] + t)[1..] == t;
  }

  /** Index of the first element satisfying `p` (the `for ... break` idiom). */
  function FirstIndex<T>(s: seq<T>, p: T -> bool): (r: Option<nat>)
    ensures r.None? <==> forall i :: 0 <= i < |s| ==> !p(s[i])
    ensures r.Some? ==> r.value < |s| && p(s[r.value])
    ensures r.Some? ==> forall j :: 0 <= j < r.value ==> !p(s[j])
  {
    if s == [] then None
    else if p(s[0]) then Some(0)
    else match FirstIndex(s[1..], p)
      case None => None
      case Some(i) => Some(i + 1)
  }

  /** An element appended after a prefix without matches is the first match. */
  lemma FirstIndexOfAppended<T>(s: seq<T>, x: T, p: T -> bool)
    requires forall i :: 0 <= i < |s| ==> !p(s[i])
    requires p(x)
    ensures FirstIndex(s + [x], p) == Some(|s|)
  {
    var t := s + [x];
    assert forall i :: 0 <= i < |s| ==> t[i] == s[i];
    assert t[|s|] == x;
  }

  /** The first non-`None` answer of `f` along `s`: the first exception raised in a loop. */
  function FirstSome<T, U>(s: seq<T>, f: T -> Option<U>): (r: Option<U>)
    ensures r.None? <==> forall i :: 0 <= i < |s| ==> f(s[i]).None?
    ensures r.Some? ==> exists i :: 0 <= i < |s| && f(s[i]) == r
  {
    if s == [] then None
    else if f(s[0]).Some? then f(s[0])
    else FirstSome(s[1..], f)
  }

  /** `[f(x) for x in s]`. */
  function Map<T, U>(s: seq<T>, f: T -> U): (r: seq<U>)
    ensures |r| == |s|
    ensures forall i :: 0 <= i < |s| ==> r[i] == f(s[i])
  {
    if s == [] then [] else [f(s[0])] + Map(s[1..], f)
  }
}

=== FILE: gateway.dfy ===
/**
 * The chat-side entry point: turning a `/command arg ...` message into a
 * command name and its arguments.
 */
module Gateway {
  import opened Text

  /** What `parse_telegram_command` yields: `(None, [])` for a message that
      is not a command, the name and arguments otherwise, and the
      `IndexError` raised when nothing follows the slash. */
  datatype Parsed = NotACommand | Command(name: string, args: seq<string>) | MissingName

  /** `parse_telegram_command`. */
  function ParseCommand(text: string): (r: Parsed)
    ensures r.NotACommand? <==> !StartsWith(text, "/")
    ensures r.MissingName? <==> StartsWith(text, "/") && forall i :: 1 <= i < |text| ==> IsSpace(text[i])
    ensures r.Command? ==> IsLowerCase(r.name) && IsWord(r.name)
    ensures r.Command? ==> forall k :: 0 <= k < |r.args| ==> IsWord(r.args[k])
  {
    if !StartsWith(text, "/") then NotACommand
    else
      var parts := Split(text[1..]);
      SplitEmptyIffBlank(text[1..]);
      assert forall i :: 1 <= i < |text| ==> text[i] == text[1..][i - 1];
      if parts == [] then MissingName
      else
        LowerIdempotent(parts[0]);
        Command(Lower(parts[0]), parts[1..])
  }

  /** Writing a name and arguments after a slash and parsing the line gives
      back the lower-cased name and the arguments unchanged and in order. */
  lemma ParseRoundTrip(name: string, args: seq<string>)
    requires IsWord(name)
    requires forall k :: 0 <= k < |args| ==> IsWord(args[k])
    ensures ParseCommand("/" + JoinSpace([name] + args)) == Command(Lower(name), args)
  {
    var ws := [name] + args;
    var text := "/" + JoinSpace(ws);
    assert text[1..] == JoinSpace(ws);
    SplitJoinSpace(ws);
    assert Split(text[1..])[1..] == args;
  }

  /** Whitespace before the name is skipped. */
  lemma LeadingSpaceIgnored(c: char, rest: string)
    requires IsSpace(c)
    ensures ParseCommand("/" + [c] + rest) == ParseCommand("/" + rest)
  {
    assert ("/" + [c] + rest)[1..] == [c] + rest;
    assert ("/" + rest)[1..] == rest;
    SplitSkipsLeadingSpace(c, rest);
  }
}

=== FILE: handlers.dfy ===
/**
 * The nine command handlers of the processor. Each is a pure decision over
 * the caller's user record and the subscription documents that carry the
 * caller's chat id; `add` and `delete` return the updated collection and
 * `sendreminder` the updated mail log.
 */
module Handlers {
  import opened Wrappers
  import opened Text
  import opened Collections
  import opened Registry
  import opened Plans
  import opened Records

  /** The query `where('telegram_chat_id', '==', chat_id)`. */
  function OwnedBy(chatId: Option<ChatId>): Subscription -> bool {
    (s: Subscription) => s.doc.chatId == chatId
  }

  /** The caller's documents, in the collection's iteration order. */
  function Owned(store: seq<Subscription>, chatId: Option<ChatId>): (r: seq<Subscription>)
    ensures forall i :: 0 <= i < |r| ==> r[i] in store && r[i].doc.chatId == chatId
    ensures forall i :: 0 <= i < |store| && store[i].doc.chatId == chatId ==> store[i] in r
  {
    Filter(store, OwnedBy(chatId))
  }

  function DocOf(s: Subscription): Doc {
    s.doc
  }

  // ----------------------------------------------------------------- start

  /** `_handle_start`. It has no exception handler of its own, so a missing
      key or an unknown plan propagates as a raised fault. */
  function HandleStart(user: UserData): (r: Result<Response, Fault>)
    ensures r.Success? <==>
      && user.planType.Some? && user.planType.value in Keys(SubscriptionPlans)
      && user.uniqueId.Some? && user.maxSubscriptions.Some?
    ensures user.planType.None? ==> r == Failure(MissingKey("plan_type"))
    ensures r.Success? ==>
      && r.value.success
      && r.value.data == UserInfo(user)
      && r.value.redirect == Some("/dashboard")
      && r.value.kind == Welcome(Get(SubscriptionPlans, user.planType.value).value.name)
  {
    if user.planType.None? then Failure(MissingKey("plan_type"))
    else match Get(SubscriptionPlans, user.planType.value)
      case None => Failure(UnknownPlan(user.planType.value))
      case Some(plan) =>
        if user.uniqueId.None? then Failure(MissingKey("unique_id"))
        else if user.maxSubscriptions.None? then Failure(MissingKey("max_subscriptions"))
        else Success(Response(true, Welcome(plan.name), UserInfo(user), Some("/dashboard")))
  }

  // ------------------------------------------------------------------ list

  /** A document `list` can display: expiry present and parseable, and the
      service, username and email keys present. */
  predicate Listable(doc: Doc, env: Env) {
    DaysLeft(doc, env).Some? && doc.service.Some? && doc.username.Some? && doc.email.Some?
  }

  /** The exception `list` raises on one document, in the order the loop body
      touches the keys. */
  function ListRowFault(env: Env): Subscription -> Option<Fault> {
    (s: Subscription) =>
      if s.doc.expiry.None? then Some(MissingKey("expiry"))
      else if env.parseDate(s.doc.expiry.value).None? then Some(BadDate(s.doc.expiry.value))
      else if s.doc.service.None? then Some(MissingKey("service"))
      else if s.doc.username.None? then Some(MissingKey("username"))
      else if s.doc.email.None? then Some(MissingKey("email"))
      else None
  }

  function ListStatus(env: Env): Subscription -> Status {
    (s: Subscription) =>
      match DaysLeft(s.doc, env)
      case Some(d) => Classify(d, ListWarningDays)
      case None => Unknown
  }

  /** `_handle_list`. */
  function HandleList(user: UserData, store: seq<Subscription>, env: Env): (r: Response)
    ensures var owned := Owned(store, user.chatId);
      && (owned == [] ==> r == Response(true, NoSubscriptions, SubscriptionList([]), None))
      && (r.success <==> forall i :: 0 <= i < |owned| ==> Listable(owned[i].doc, env))
      && (r.success ==> r.data == SubscriptionList(owned) && r.redirect.None?)
      && (r.success && owned != [] ==>
            && r.kind.Listing? && |r.kind.statuses| == |owned|
            && forall i :: 0 <= i < |owned| ==>
                 r.kind.statuses[i] == Classify(DaysLeft(owned[i].doc, env).value, ListWarningDays))
      && (!r.success ==> r.kind.Failed? && r.data == NoData)
  {
    var owned := Owned(store, user.chatId);
    if owned == [] then Response(true, NoSubscriptions, SubscriptionList([]), None)
    else match FirstSome(owned, ListRowFault(env))
      case Some(f) => Fail(Failed(f))
      case None => Response(true, Listing(Map(owned, ListStatus(env))), SubscriptionList(owned), None)
  }

  // ------------------------------------------------------------------- add

  /** The quota gate of `add`: a missing quota counts as 5, and 999999 as
      no limit at all. */
  predicate OverQuota(user: UserData, store: seq<Subscription>) {
    var limit := user.maxSubscriptions.GetOr(5);
    limit != Unlimited && |Owned(store, user.chatId)| >= limit
  }

  const AddNote := "Added via unified command processor"

  /** `_handle_add`. Only the date format is checked: the email is stored as
      given and past dates are accepted. */
  function HandleAdd(args: seq<string>, user: UserData, st: State, env: Env): (r: Reply)
    ensures r.state.outbox == st.outbox
    ensures |args| < 4 ==> r == Reply(Fail(Failed(NotEnoughValues(|args|))), st)
    ensures |args| >= 4 && env.parseDate(args[3]).None? ==> r == Reply(Fail(InvalidDate), st)
    ensures |args| >= 4 && env.parseDate(args[3]).Some? && OverQuota(user, st.store) ==>
      r == Reply(Response(false, LimitReached, NoData, Some("/upgrade")), st)
    ensures r.response.success <==>
      |args| >= 4 && env.parseDate(args[3]).Some? && !OverQuota(user, st.store)
    ensures !r.response.success ==> r.state == st
    ensures r.response.success ==>
      && r.response.data.AddedSubscription?
      && r.response.data.subscriptionId == env.newId
      && r.response.redirect == Some("/dashboard")
      && r.state.store == st.store + [Subscription(env.newId, r.response.data.subscription)]
    ensures r.response.success ==>
      var d := r.response.data.subscription;
      && d.chatId == user.chatId
      && d.username == Some(args[0]) && d.email == Some(args[1])
      && d.service == Some(args[2]) && d.expiry == Some(args[3])
      && d.amount == Some(if |args| == 4 then "0" else JoinSpace(args[4..]))
  {
    if |args| < 4 then Reply(Fail(Failed(NotEnoughValues(|args|))), st)
    else
      var amount := if |args| > 4 then JoinSpace(args[4..]) else "0";
      if env.parseDate(args[3]).None? then Reply(Fail(InvalidDate), st)
      else if OverQuota(user, st.store) then
        Reply(Response(false, LimitReached, NoData, Some("/upgrade")), st)
      else
        var doc := Doc(user.chatId, Some(args[0]), Some(args[1]), Some(args[2]), Some(args[3]),
                       Some(amount), Some(env.now), Some(AddNote));
        Reply(Response(true, Added, AddedSubscription(env.newId, doc), Some("/dashboard")),
              State(st.store + [Subscription(env.newId, doc)], st.outbox))
  }

  // ---------------------------------------------------------------- delete

  /** `sub.id == sub_id or sub.id.startswith(sub_id)`. */
  function IdMatches(query: string): Subscription -> bool {
    (s: Subscription) => s.id == query || StartsWith(s.id, query)
  }

  function IdIsNot(id: string): Subscription -> bool {
    (s: Subscription) => s.id != id
  }

  /** `document(id).delete()`: drop the document stored under `id`. */
  function RemoveId(store: seq<Subscription>, id: string): (r: seq<Subscription>)
    ensures forall i :: 0 <= i < |r| ==> r[i] in store && r[i].id != id
    ensures forall i :: 0 <= i < |store| && store[i].id != id ==> store[i] in r
  {
    Filter(store, IdIsNot(id))
  }

  /** The "Available IDs" hint: the first five of the caller's ids, cut to 8 characters. */
  function IdHints(owned: seq<Subscription>): (h: seq<string>)
    ensures |h| == if |owned| < 5 then |owned| else 5
    ensures forall i :: 0 <= i < |h| ==> StartsWith(owned[i].id, h[i])
    ensures forall i :: 0 <= i < |h| ==> |h[i]| == if |owned[i].id| <= 8 then |owned[i].id| else 8
  {
    var firstFive := if |owned| < 5 then owned else owned[..5];
    Map(firstFive, (s: Subscription) => Truncate(s.id, 8))
  }

  /** `_handle_delete`. */
  function HandleDelete(args: seq<string>, user: UserData, st: State): (r: Reply)
    ensures r.state.outbox == st.outbox
    ensures |args| == 0 ==> r == Reply(Fail(Failed(IndexOutOfRange)), st)
    ensures |args| > 0 ==>
      var owned := Owned(st.store, user.chatId);
      && (r.response.success <==> exists i :: 0 <= i < |owned| && StartsWith(owned[i].id, args[0]))
      && (!r.response.success ==>
            r == Reply(Fail(NotFound(args[0], IdHints(owned))), st))
      && (r.response.success ==>
            exists i :: 0 <= i < |owned|
              && StartsWith(owned[i].id, args[0])
              && (forall j :: 0 <= j < i ==> !StartsWith(owned[j].id, args[0]))
              && r.response.data == DeletedSubscription(owned[i].doc)
              && r.state.store == RemoveId(st.store, owned[i].id))
    ensures r.response.success ==> r.response.kind == Removed && r.response.redirect == Some("/dashboard")
  {
    if |args| == 0 then Reply(Fail(Failed(IndexOutOfRange)), st)
    else
      var owned := Owned(st.store, user.chatId);
      match FirstIndex(owned, IdMatches(args[0]))
      case None => Reply(Fail(NotFound(args[0], IdHints(owned))), st)
      case Some(i) =>
        var target := owned[i];
        Reply(Response(true, Removed, DeletedSubscription(target.doc), Some("/dashboard")),
              State(RemoveId(st.store, target.id), st.outbox))
  }

  // ---------------------------------------------------------------- search

  /** `sub_data.get(field, '').lower()`. */
  function FieldText(field: Option<string>): string {
    Lower(field.GetOr(""))
  }

  /** A lower-cased keyword occurs in the lower-cased username, email or service. */
  function KeywordMatches(query: string): Subscription -> bool {
    (s: Subscription) =>
      || Contains(FieldText(s.doc.username), query)
      || Contains(FieldText(s.doc.email), query)
      || Contains(FieldText(s.doc.service), query)
  }

  /** A document the result listing can display: the keys it reads directly are present. */
  predicate Displayable(doc: Doc) {
    doc.service.Some? && doc.username.Some? && doc.email.Some? && doc.expiry.Some?
  }

  /** The exception the result listing raises on one document. */
  function SearchRowFault(s: Subscription): Option<Fault> {
    if s.doc.service.None? then Some(MissingKey("service"))
    else if s.doc.username.None? then Some(MissingKey("username"))
    else if s.doc.email.None? then Some(MissingKey("email"))
    else if s.doc.expiry.None? then Some(MissingKey("expiry"))
    else None
  }

  /** Search statuses warn a week ahead; an unparseable expiry shows as UNKNOWN. */
  function WeekStatus(env: Env): Subscription -> Status {
    (s: Subscription) =>
      match DaysLeft(s.doc, env)
      case Some(d) => Classify(d, WeekWarningDays)
      case None => Unknown
  }

  /** `_handle_search`. */
  function HandleSearch(args: seq<string>, user: UserData, store: seq<Subscription>, env: Env): (r: Response)
    ensures |args| == 0 ==> r == Fail(Failed(IndexOutOfRange))
    ensures |args| > 0 ==>
      var owned := Owned(store, user.chatId);
      var query := Lower(args[0]);
      && (owned == [] ==> r == Response(true, NoSubscriptions, SearchResults([]), None))
      && (!r.success <==>
            exists i :: 0 <= i < |owned| && KeywordMatches(query)(owned[i]) && !Displayable(owned[i].doc))
      && (r.success ==>
            && r.data.SearchResults? && r.redirect.None?
            && r.data.results == Filter(owned, KeywordMatches(query)))
      && (r.success && r.data.results != [] ==>
            r.kind == Listing(Map(r.data.results, WeekStatus(env))))
      && (!r.success ==> r.kind.Failed?)
  {
    if |args| == 0 then Fail(Failed(IndexOutOfRange))
    else
      var query := Lower(args[0]);
      var owned := Owned(store, user.chatId);
      if owned == [] then Response(true, NoSubscriptions, SearchResults([]), None)
      else
        var matching := Filter(owned, KeywordMatches(query));
        if matching == [] then Response(true, NoMatches(args[0]), SearchResults([]), None)
        else match FirstSome(matching, SearchRowFault)
          case Some(f) => Fail(Failed(f))
          case None =>
            Response(true, Listing(Map(matching, WeekStatus(env))), SearchResults(matching), None)
  }

  /** A successful search returns exactly the caller's documents in which
      the lower-cased keyword occurs, and shows each with its week-ahead
      status (UNKNOWN when the expiry does not parse). */
  lemma SearchFindsExactlyMatches(args: seq<string>, user: UserData, store: seq<Subscription>, env: Env)
    requires |args| > 0
    requires HandleSearch(args, user, store, env).success
    ensures var r := HandleSearch(args, user, store, env);
      var owned := Owned(store, user.chatId);
      var query := Lower(args[0]);
      && (forall i :: 0 <= i < |r.data.results| ==>
            r.data.results[i] in owned && KeywordMatches(query)(r.data.results[i]))
      && (forall i :: 0 <= i < |owned| && KeywordMatches(query)(owned[i]) ==>
            owned[i] in r.data.results)
      && (r.data.results != [] ==>
            && r.kind.Listing? && |r.kind.statuses| == |r.data.results|
            && forall i :: 0 <= i < |r.data.results| ==>
                 r.kind.statuses[i] ==
                   (if DaysLeft(r.data.results[i].doc, env).Some?
                    then Classify(DaysLeft(r.data.results[i].doc, env).value, WeekWarningDays) else Unknown))
  {
  }

  // ------------------------------------------------------------------ help

  /** The role's permissions list the command called `name`. */
  ghost predicate VisibleTo(name: string, role: string) {
    exists i :: 0 <= i < |Commands| && Commands[i].0 == name && role in Commands[i].1.permissions
  }

  /** A name is among the role's commands exactly when the role may run it. */
  lemma VisibleIffListed(role: string)
    ensures forall name :: name in Keys(CommandsForRole(role)) <==> VisibleTo(name, role)
  {
    forall name | name in Keys(CommandsForRole(role))
      ensures VisibleTo(name, role)
    {
      ListedIsVisible(role, name);
    }
    forall name | VisibleTo(name, role)
      ensures name in Keys(CommandsForRole(role))
    {
      VisibleIsListed(role, name);
    }
  }

  lemma ListedIsVisible(role: string, name: string)
    requires name in Keys(CommandsForRole(role))
    ensures VisibleTo(name, role)
  {
    var rs := CommandsForRole(role);
    var i :| 0 <= i < |rs| && Keys(rs)[i] == name;
    var j :| 0 <= j < |Commands| && Commands[j] == rs[i];
  }

  lemma VisibleIsListed(role: string, name: string)
    requires VisibleTo(name, role)
    ensures name in Keys(CommandsForRole(role))
  {
    var rs := CommandsForRole(role);
    var j :| 0 <= j < |Commands| && Commands[j].0 == name && role in Commands[j].1.permissions;
    var i :| 0 <= i < |rs| && rs[i] == Commands[j];
    assert Keys(rs)[i] == name;
  }

  /** `_handle_help`. A missing role counts as `free`. */
  function HandleHelp(args: seq<string>, user: UserData): (r: Response)
    ensures var role := user.role.GetOr("free");
      (|args| > 0 && args[0] != "") ==>
        var name := Lower(args[0]);
        && (r.success <==> VisibleTo(name, role))
        && (r.success ==>
              && r.data.CommandHelpData? && r.kind == HelpFor(name)
              && (name, r.data.definition) in Commands
              && role in r.data.definition.permissions)
        && (!r.success ==> r == Fail(HelpUnavailable(name)))
    ensures var role := user.role.GetOr("free");
      (|args| == 0 || args[0] == "") ==>
        && r.success && r.data.AvailableCommands? && r.kind == CommandIndex
        && (forall i :: 0 <= i < |r.data.names| ==> VisibleTo(r.data.names[i], role))
        && (forall j :: 0 <= j < |Commands| && role in Commands[j].1.permissions ==>
              Commands[j].0 in r.data.names)
        && r.data.names == HelpIndex(role)
  {
    var role := user.role.GetOr("free");
    var available := CommandsForRole(role);
    VisibleIffListed(role);
    if |args| > 0 && args[0] != "" then
      var name := Lower(args[0]);
      LowerIdempotent(args[0]);
      match GetCommand(name)
      case None => Fail(HelpUnavailable(name))
      case Some(def) =>
        if name !in Keys(available) then Fail(HelpUnavailable(name))
        else
          CommandsForRoleIsSubMap(role);
          HelpEntry(role, name, def);
          Response(true, HelpFor(name), CommandHelpData(def), None)
    else
      Response(true, CommandIndex, AvailableCommands(HelpIndex(role)), None)
  }

  /** `list(available_commands.keys())`: the names of the role's commands,
      each once, in table order. */
  function HelpIndex(role: string): (names: seq<string>)
    ensures forall i :: 0 <= i < |names| ==> VisibleTo(names[i], role)
    ensures forall j :: 0 <= j < |Commands| && role in Commands[j].1.permissions ==> Commands[j].0 in names
    ensures forall i, j :: 0 <= i < j < |names| ==> names[i] != names[j]
    ensures SubsequenceOf(names, CommandNames)
  {
    var available := CommandsForRole(role);
    VisibleIffListed(role);
    SubsequenceKeys(available, Commands);
    CommandKeys();
    Keys(available)
  }

  /** A listed command's definition is its table entry, so the role may run it. */
  lemma HelpEntry(role: string, name: string, def: CommandDefinition)
    requires name in Keys(CommandsForRole(role))
    requires GetCommand(name) == Some(def)
    ensures (name, def) in Commands && role in def.permissions
  {
    var rs := CommandsForRole(role);
    var i :| 0 <= i < |rs| && Keys(rs)[i] == name;
    CommandsForRoleIsSubMap(role);
    assert (rs[i].0, rs[i].1) in rs;
  }

  // ----------------------------------------------------------------- stats

  /** Expiry within the coming week, today included. */
  function DueWithinWeek(env: Env): Subscription -> bool {
    (s: Subscription) => DaysLeft(s.doc, env).Some? && 0 <= DaysLeft(s.doc, env).value <= 7
  }

  function PastExpiry(env: Env): Subscription -> bool {
    (s: Subscription) => DaysLeft(s.doc, env).Some? && DaysLeft(s.doc, env).value < 0
  }

  function BeyondWeek(env: Env): Subscription -> bool {
    (s: Subscription) => DaysLeft(s.doc, env).Some? && DaysLeft(s.doc, env).value > 7
  }

  datatype Tally = Tally(active: nat, expiring: nat, expired: nat)

  /** The counting loop of `stats`; a document whose expiry is missing or does
      not parse is skipped. */
  function TallyStatuses(subs: seq<Subscription>, env: Env): (t: Tally)
    ensures t.expired == |Filter(subs, PastExpiry(env))|
    ensures t.expiring == |Filter(subs, DueWithinWeek(env))|
    ensures t.active == |Filter(subs, BeyondWeek(env))|
    ensures t.active + t.expiring + t.expired <= |subs|
    ensures t.active + t.expiring + t.expired == |subs| <==>
      forall i :: 0 <= i < |subs| ==> DaysLeft(subs[i].doc, env).Some?
  {
    if subs == [] then Tally(0, 0, 0)
    else
      var rest := TallyStatuses(subs[1..], env);
      match DaysLeft(subs[0].doc, env)
      case None => rest
      case Some(d) =>
        if d < 0 then rest.(expired := rest.expired + 1)
        else if d <= WeekWarningDays then rest.(expiring := rest.expiring + 1)
        else rest.(active := rest.active + 1)
  }

  /** `_handle_stats`. Amounts are not summed. */
  function HandleStats(user: UserData, store: seq<Subscription>, env: Env): (r: Response)
    ensures r.success <==>
      && user.planType.Some? && user.planType.value in Keys(SubscriptionPlans)
      && user.uniqueId.Some? && user.role.Some? && user.maxSubscriptions.Some?
    ensures r.success ==>
      var owned := Owned(store, user.chatId);
      && r.data.StatsData? && r.kind == StatsReport && r.redirect.None?
      && r.data.total == |owned|
      && r.data.expiring == |Filter(owned, DueWithinWeek(env))|
      && r.data.expired == |Filter(owned, PastExpiry(env))|
      && r.data.active == |Filter(owned, BeyondWeek(env))|
      && r.data.active + r.data.expiring + r.data.expired <= r.data.total
      && (r.data.active + r.data.expiring + r.data.expired == r.data.total <==>
            forall i :: 0 <= i < |owned| ==> DaysLeft(owned[i].doc, env).Some?)
      && (user.planType.value, r.data.planInfo) in SubscriptionPlans
      && r.data.userInfo == user
    ensures !r.success ==> r.kind.Failed? && r.data == NoData
  {
    var owned := Owned(store, user.chatId);
    var t := TallyStatuses(owned, env);
    if user.planType.None? then Fail(Failed(MissingKey("plan_type")))
    else match Get(SubscriptionPlans, user.planType.value)
      case None => Fail(Failed(UnknownPlan(user.planType.value)))
      case Some(plan) =>
        if user.uniqueId.None? then Fail(Failed(MissingKey("unique_id")))
        else if user.role.None? then Fail(Failed(MissingKey("role")))
        else if user.maxSubscriptions.None? then Fail(Failed(MissingKey("max_subscriptions")))
        else Response(true, StatsReport,
                      StatsData(|owned|, t.active, t.expiring, t.expired, plan, user), None)
  }

  // ---------------------------------------------------------- sendreminder

  /** The fault building the reminder mail raises, in evaluation order:
      the first document's email, the greeting name, each document's service. */
  function ReminderFault(due: seq<Subscription>, user: UserData): Option<Fault>
    requires due != []
  {
    if due[0].doc.email.None? then Some(MissingKey("email"))
    else if user.telegramUsername.None? then Some(MissingKey("telegram_username"))
    else if exists i :: 0 <= i < |due| && due[i].doc.service.None? then Some(MissingKey("service"))
    else None
  }

  /** `_handle_sendreminder`: one mail, to the first due document's address,
      listing every due document. */
  function HandleSendReminder(user: UserData, st: State, env: Env): (r: Reply)
    ensures r.state.store == st.store
    ensures var due := Filter(Owned(st.store, user.chatId), DueWithinWeek(env));
      && (due == [] ==> r == Reply(Response(true, NothingExpiring, NoData, None), st))
      && (due != [] ==>
            (r.response.success <==>
               && due[0].doc.email.Some? && user.telegramUsername.Some?
               && (forall i :: 0 <= i < |due| ==> due[i].doc.service.Some?)
               && env.mailDelivers))
      && (due != [] && r.response.success ==>
            && r.state.outbox == st.outbox + [Mail(due[0].doc.email.value, user.telegramUsername.value, Map(due, DocOf))]
            && r.response.data == ExpiringSubscriptions(Map(due, DocOf))
            && r.response.kind == ReminderSent(|due|))
      && (!r.response.success ==> r.state == st && r.response.kind.Failed?)
  {
    var due := Filter(Owned(st.store, user.chatId), DueWithinWeek(env));
    if due == [] then Reply(Response(true, NothingExpiring, NoData, None), st)
    else match ReminderFault(due, user)
      case Some(f) => Reply(Fail(Failed(f)), st)
      case None =>
        if !env.mailDelivers then Reply(Fail(Failed(MailFailed("mail server rejected the message"))), st)
        else
          var docs := Map(due, DocOf);
          var mail := Mail(due[0].doc.email.value, user.telegramUsername.value, docs);
          Reply(Response(true, ReminderSent(|due|), ExpiringSubscriptions(docs), None),
                State(st.store, st.outbox + [mail]))
  }

  // --------------------------------------------------------------- upgrade

  /** `_handle_upgrade`: informational only; no plan is changed. */
  function HandleUpgrade(args: seq<string>, user: UserData): (r: Response)
    ensures (|args| > 0 && args[0] != "") ==>
      var key := Lower(args[0]);
      && (r.success <==> key in Keys(SubscriptionPlans))
      && (r.success ==>
            && r.data.PlanInfo? && (key, r.data.plan) in SubscriptionPlans
            && r.redirect == Some("/upgrade"))
      && (!r.success ==> r == Fail(InvalidPlan(key, Keys(SubscriptionPlans))))
    ensures (|args| == 0 || args[0] == "") ==>
      && (r.success <==> user.planType.Some?)
      && (r.success ==>
            r == Response(true, PlanIndex, AllPlans(SubscriptionPlans, user.planType.value), Some("/upgrade")))
      && (!r.success ==> r == Fail(Failed(MissingKey("plan_type"))))
  {
    if |args| > 0 && args[0] != "" then
      var key := Lower(args[0]);
      match Get(SubscriptionPlans, key)
      case None => Fail(InvalidPlan(key, Keys(SubscriptionPlans)))
      case Some(plan) => Response(true, PlanDetails, PlanInfo(plan), Some("/upgrade"))
    else if user.planType.None? then Fail(Failed(MissingKey("plan_type")))
    else Response(true, PlanIndex, AllPlans(SubscriptionPlans, user.planType.value), Some("/upgrade"))
  }
}

=== FILE: plans.dfy ===
/**
 * The static configuration of the application: the subscription plans and
 * the ranked user roles.
 */
module Plans {
  import opened Wrappers
  import opened Text
  import opened Collections

  /** The quota value that stands for "unlimited subscriptions". */
  const Unlimited: int := 999999

  /** A plan: display name, subscription quota and validity in days
      (`None` for a lifetime plan). Its price label and feature list are
      kept in `PlanOffers` under the same key. */
  datatype Plan = Plan(
    name: string,
    maxSubscriptions: int,
    validityDays: Option<nat>)

  /** The display-only fields of a plan. */
  datatype Offer = Offer(price: string, features: seq<string>)

  const FreePlan := Plan("Free Plan", 5, None)
  const BasicPlan := Plan("Basic Plan", 15, Some(30))
  const PremiumPlan := Plan("Premium Plan", 30, Some(30))
  const EnterprisePlan := Plan("Enterprise Plan", 100, Some(30))
  const MonthlyUnlimitedPlan := Plan("Monthly Unlimited", Unlimited, Some(30))
  const YearlyUnlimitedPlan := Plan("Yearly Unlimited", Unlimited, Some(365))

  /** `SUBSCRIPTION_PLANS`, in declaration order. */
  const SubscriptionPlans: seq<(string, Plan)> := [
    ("free", FreePlan),
    ("basic", BasicPlan),
    ("premium", PremiumPlan),
    ("enterprise", EnterprisePlan),
    ("monthly_unlimited", MonthlyUnlimitedPlan),
    ("yearly_unlimited", YearlyUnlimitedPlan)
  ]

  const FreeOffer := Offer("₹0 (Lifetime)",
    ["Up to 5 OTT subscriptions", "Basic reminders", "Telegram + Web access"])
  const BasicOffer := Offer("₹299/month",
    ["Up to 15 OTT subscriptions", "Email reminders", "Priority support"])
  const PremiumOffer := Offer("₹599/month",
    ["Up to 30 OTT subscriptions", "Email + SMS reminders", "Data export", "24/7 support"])
  const EnterpriseOffer := Offer("₹999/month",
    ["Up to 100 subscriptions", "All premium features", "API access", "Custom integration"])
  const MonthlyUnlimitedOffer := Offer("₹499 (30 Days)",
    ["Unlimited OTT subscriptions", "Manager role access", "Email + SMS reminders",
     "Priority support", "Advanced analytics"])
  const YearlyUnlimitedOffer := Offer("₹4999 (365 Days)",
    ["Unlimited OTT subscriptions", "Manager role access", "Email + SMS reminders",
     "Priority support", "Advanced analytics", "17% discount vs monthly!"])

  /** The price label and features of every plan, under the plan's key. */
  const PlanOffers: seq<(string, Offer)> := [
    ("free", FreeOffer),
    ("basic", BasicOffer),
    ("premium", PremiumOffer),
    ("enterprise", EnterpriseOffer),
    ("monthly_unlimited", MonthlyUnlimitedOffer),
    ("yearly_unlimited", YearlyUnlimitedOffer)
  ]

  /** The offers table lists the plans in the same order, each with at least one feature. */
  lemma OfferTableWellFormed()
    ensures Keys(PlanOffers) == PlanKeys
    ensures forall i :: 0 <= i < |PlanOffers| ==> |PlanOffers[i].1.features| > 0
  {
    assert |PlanOffers| == |PlanKeys|;
    forall i | 0 <= i < |PlanOffers|
      ensures PlanOffers[i].0 == PlanKeys[i]
    {
    }
    assert |FreeOffer.features| > 0 && |BasicOffer.features| > 0 && |PremiumOffer.features| > 0;
    assert |EnterpriseOffer.features| > 0 && |MonthlyUnlimitedOffer.features| > 0;
    assert |YearlyUnlimitedOffer.features| > 0;
  }

  /** `USER_ROLES`: role name to rank. */
  const UserRoles: seq<(string, int)> := [
    ("owner", 5), ("admin", 4), ("manager", 3), ("user", 2), ("free", 1)
  ]

  /** The plan table's keys, in order. */
  const PlanKeys: seq<string> :=
    ["free", "basic", "premium", "enterprise", "monthly_unlimited", "yearly_unlimited"]

  /** The plan table has no repeated key, so lookup finds every plan. */
  lemma PlanTableWellFormed()
    ensures Keys(SubscriptionPlans) == PlanKeys
    ensures DistinctKeys(SubscriptionPlans)
  {
    assert |SubscriptionPlans| == |PlanKeys|;
    forall i | 0 <= i < |SubscriptionPlans|
      ensures SubscriptionPlans[i].0 == PlanKeys[i]
    {
    }
    PlanKeysDistinct();
  }

  /** The six plan keys differ pairwise. The proof shows that their lengths
      already differ: one length per key settles all fifteen pairs, where
      comparing the strings themselves would unfold each pair character by
      character. */
  lemma PlanKeysDistinct()
    ensures forall i, j :: 0 <= i < j < |PlanKeys| ==> PlanKeys[i] != PlanKeys[j]
  {
    var lengths := [4, 5, 7, 10, 17, 16];
    assert forall i :: 0 <= i < |PlanKeys| ==> |PlanKeys[i]| == lengths[i];
  }

  /** Plan keys are nonempty and lower case, so a lower-cased lookup finds them as written. */
  lemma PlanKeysLowerCase()
    ensures forall k :: k in Keys(SubscriptionPlans) ==> k != "" && IsLowerCase(k)
  {
    PlanTableWellFormed();
    assert IsLowerCase("free") && IsLowerCase("basic") && IsLowerCase("premium");
    assert IsLowerCase("enterprise");
    assert IsLowerCase("monthly_unlimited") && IsLowerCase("yearly_unlimited");
  }

  /** Exactly the two unlimited plans carry the quota sentinel, and every
      other plan's quota lies strictly below it. */
  lemma UnlimitedPlans()
    ensures forall i :: 0 <= i < |SubscriptionPlans| ==>
      (SubscriptionPlans[i].1.maxSubscriptions == Unlimited <==>
       SubscriptionPlans[i].0 in ["monthly_unlimited", "yearly_unlimited"])
    ensures forall i :: 0 <= i < |SubscriptionPlans| ==>
      0 < SubscriptionPlans[i].1.maxSubscriptions <= Unlimited
  {
  }

  /** The free plan: quota 5, no expiry. */
  lemma FreePlanTerms()
    ensures Get(SubscriptionPlans, "free") == Some(FreePlan)
    ensures FreePlan.maxSubscriptions == 5 && FreePlan.validityDays.None?
  {
  }

  /** `USER_ROLES.get(role, 0)`: the rank of a role, 0 for an unknown one. */
  function Rank(role: string): (n: int)
    ensures 0 <= n <= 5
    ensures n == 0 <==> role !in Keys(UserRoles)
    ensures n > 0 ==> (role, n) in UserRoles
  {
    assert Keys(UserRoles) == ["owner", "admin", "manager", "user", "free"];
    Get(UserRoles, role).GetOr(0)
  }

  /** The five named roles are ranked 1 (free) to 5 (owner). */
  lemma RoleRanks()
    ensures Rank("free") == 1 && Rank("user") == 2 && Rank("manager") == 3
    ensures Rank("admin") == 4 && Rank("owner") == 5
  {
    assert DistinctKeys(UserRoles);
    GetStored(UserRoles, "free", 1);
    GetStored(UserRoles, "user", 2);
    GetStored(UserRoles, "manager", 3);
    GetStored(UserRoles, "admin", 4);
    GetStored(UserRoles, "owner", 5);
  }
}

=== FILE: processor.dfy ===
/**
 * `CommandProcessor.process_command`: the fixed pipeline every command from
 * the chat bot and the web dashboard goes through — unknown command, then
 * permission, then argument count, then the handler — behind a barrier that
 * turns any escaping exception into a failure response.
 */
module Processor {
  import opened Wrappers
  import opened Text
  import opened Registry
  import opened Records
  import opened Handlers

  /** The commands that have a `_handle_<name>` method. Dispatch looks the
      handler up by the name exactly as received, without lower-casing it. */
  const HandlerNames: seq<string> :=
    ["start", "list", "add", "delete", "search", "help", "stats", "sendreminder", "upgrade"]

  /** The role the permission check uses: `user_data.get('role', 'free')`. */
  function EffectiveRole(user: UserData): string {
    user.role.GetOr("free")
  }

  /** The fault barrier's message: the exception text cut to 100 characters. */
  function CrashResponse(f: Fault): (r: Response)
    ensures !r.success && r.kind.Crashed? && r.data == NoData && r.redirect.None?
    ensures StartsWith(ErrorText(f), r.kind.detail)
    ensures |r.kind.detail| == if |ErrorText(f)| <= 100 then |ErrorText(f)| else 100
  {
    Fail(Crashed(Truncate(ErrorText(f), 100)))
  }

  /** `getattr(self, f"_handle_{command_name}")(args, user_data)`. */
  function Dispatch(name: string, args: seq<string>, user: UserData, st: State, env: Env): (r: Reply)
    requires name in HandlerNames
    ensures name !in ["add", "delete"] ==> r.state.store == st.store
    ensures name != "sendreminder" ==> r.state.outbox == st.outbox
    ensures r.response.kind != PermissionDenied && !r.response.kind.BadArguments?
    ensures !r.response.kind.NoSuchCommand? && !r.response.kind.HandlerMissing?
    ensures r.response.kind.Crashed? ==> name == "start"
  {
    if name == "start" then
      match HandleStart(user)
      case Success(resp) => Reply(resp, st)
      case Failure(f) => Reply(CrashResponse(f), st)
    else if name == "list" then Reply(HandleList(user, st.store, env), st)
    else if name == "add" then HandleAdd(args, user, st, env)
    else if name == "delete" then HandleDelete(args, user, st)
    else if name == "search" then Reply(HandleSearch(args, user, st.store, env), st)
    else if name == "help" then Reply(HandleHelp(args, user), st)
    else if name == "stats" then Reply(HandleStats(user, st.store, env), st)
    else if name == "sendreminder" then HandleSendReminder(user, st, env)
    else Reply(HandleUpgrade(args, user), st)
  }

  /** `process_command`. It is total: it returns a response for every input. */
  function ProcessCommand(name: string, args: seq<string>, user: UserData, st: State, env: Env): (r: Reply)
    ensures GetCommand(name).None? ==> r == Reply(Fail(NoSuchCommand(name)), st)
    ensures GetCommand(name).Some? && EffectiveRole(user) !in GetCommand(name).value.permissions ==>
      r == Reply(Fail(PermissionDenied), st)
    ensures (GetCommand(name).Some? && EffectiveRole(user) in GetCommand(name).value.permissions &&
             !ValidateArgs(name, args).Valid?) ==>
      r == Reply(Fail(BadArguments(ValidateArgs(name, args), Lower(name))), st)
    ensures (GetCommand(name).Some? && EffectiveRole(user) in GetCommand(name).value.permissions &&
             ValidateArgs(name, args).Valid? && name in HandlerNames) ==>
      r == Dispatch(name, args, user, st, env)
    ensures r.response.kind.Crashed? ==> |r.response.kind.detail| <= 100 && !r.response.success
    ensures r.response.kind.HandlerMissing? ==> GetCommand(name).Some? && name !in HandlerNames
    ensures name !in ["add", "delete"] ==> r.state.store == st.store
    ensures name != "sendreminder" ==> r.state.outbox == st.outbox
  {
    match GetCommand(name)
    case None => Reply(Fail(NoSuchCommand(name)), st)
    case Some(def) =>
      if EffectiveRole(user) !in def.permissions then Reply(Fail(PermissionDenied), st)
      else
        var check := ValidateArgs(name, args);
        if !check.Valid? then Reply(Fail(BadArguments(check, def.name)), st)
        else if name in HandlerNames then Dispatch(name, args, user, st, env)
        else Reply(Fail(HandlerMissing(name)), st)
  }

  /** For a known command the caller is refused exactly when the command's
      permissions do not list the caller's role, whatever the arguments. */
  lemma PermissionDeniedIff(name: string, args: seq<string>, user: UserData, st: State, env: Env)
    requires GetCommand(name).Some?
    ensures ProcessCommand(name, args, user, st, env).response.kind == PermissionDenied <==>
      EffectiveRole(user) !in GetCommand(name).value.permissions
  {
    var def := GetCommand(name).value;
    if EffectiveRole(user) in def.permissions && ValidateArgs(name, args).Valid? && name in HandlerNames {
      var d := Dispatch(name, args, user, st, env);
      assert d.response.kind != PermissionDenied;
    }
  }

  /** A permitted caller with a wrong argument count is shown the usage text
      and the (nonempty) examples of the command, and nothing changes. */
  lemma InvalidArgumentsCarryUsage(name: string, args: seq<string>, user: UserData, st: State, env: Env)
    requires GetCommand(name).Some?
    requires EffectiveRole(user) in GetCommand(name).value.permissions
    requires !ValidateArgs(name, args).Valid?
    ensures var r := ProcessCommand(name, args, user, st, env);
      var def := GetCommand(name).value;
      && r.state == st && !r.response.success
      && r.response.kind == BadArguments(ValidateArgs(name, args), Lower(name))
      && HelpOf(Lower(name)).Some? && |HelpOf(Lower(name)).value.examples| > 0
  {
    DefinedCommandsHaveHelp(name);
  }

  /** A handler runs only for a known command, a permitted role and a valid
      argument count. */
  lemma HandlerRunsOnlyAfterChecks(name: string, args: seq<string>, user: UserData, st: State, env: Env)
    requires var k := ProcessCommand(name, args, user, st, env).response.kind;
      !k.NoSuchCommand? && k != PermissionDenied && !k.BadArguments?
    ensures GetCommand(name).Some?
    ensures EffectiveRole(user) in GetCommand(name).value.permissions
    ensures ValidateArgs(name, args) == Valid
  {
  }

  /** Once the checks pass, a command without a handler is "not implemented". */
  lemma NoHandlerMeansNotImplemented(name: string, args: seq<string>, user: UserData, st: State, env: Env)
    requires GetCommand(name).Some?
    requires EffectiveRole(user) in GetCommand(name).value.permissions
    requires ValidateArgs(name, args).Valid?
    requires name !in HandlerNames
    ensures ProcessCommand(name, args, user, st, env) == Reply(Fail(HandlerMissing(name)), st)
  {
  }

  /** Every handler name is lower case. */
  lemma HandlerNamesLowerCase()
    ensures forall i :: 0 <= i < |HandlerNames| ==> IsLowerCase(HandlerNames[i])
  {
  }

  /** Registered commands without a handler (`forcedreminder`, `promote`)
      end in "not implemented" once the earlier checks pass. */
  lemma UnhandledCommands(name: string, args: seq<string>, user: UserData, st: State, env: Env)
    requires Lower(name) == "forcedreminder" || (Lower(name) == "promote" && |args| == 2)
    requires EffectiveRole(user) in Admins
    ensures ProcessCommand(name, args, user, st, env) == Reply(Fail(HandlerMissing(name)), st)
  {
    AdminCommandsResolve();
    LowerIdempotent(name);
    assert GetCommand(name) == GetCommand(Lower(name));
    HandlerNamesLowerCase();
    AdminCommandsHaveNoHandler();
    if name in HandlerNames {
      LowerOfLowerCase(name);
      assert false;
    }
    NoHandlerMeansNotImplemented(name, args, user, st, env);
  }

  /** Neither `forcedreminder` nor `promote` has a handler. No handler name
      has the 14 characters of `forcedreminder`, and the only 7-character
      handler name, `upgrade`, starts with a different letter than `promote`.
      These two cheap facts separate both names from all nine entries without
      comparing whole strings. */
  lemma AdminCommandsHaveNoHandler()
    ensures "forcedreminder" !in HandlerNames && "promote" !in HandlerNames
  {
    assert forall i :: 0 <= i < |HandlerNames| ==> |HandlerNames[i]| != 14;
    assert forall i :: 0 <= i < |HandlerNames| && |HandlerNames[i]| == 7 ==> HandlerNames[i][0] == 'u';
  }

  /** The two handler-less commands resolve to their table entries. */
  lemma AdminCommandsResolve()
    ensures GetCommand("forcedreminder") == Some(ForcedReminderCommand)
    ensures GetCommand("promote") == Some(PromoteCommand)
  {
    assert Commands[9] == ("forcedreminder", ForcedReminderCommand);
    KnownCommand("forcedreminder", ForcedReminderCommand);
    assert Commands[10] == ("promote", PromoteCommand);
    KnownCommand("promote", PromoteCommand);
  }

  /** Lookup is case-insensitive but dispatch is not: a name that is not
      already lower case (`LIST`) passes every check and then finds no
      handler. */
  lemma MixedCaseNameFindsNoHandler(name: string, args: seq<string>, user: UserData, st: State, env: Env)
    requires GetCommand(name).Some?
    requires EffectiveRole(user) in GetCommand(name).value.permissions
    requires ValidateArgs(name, args).Valid?
    requires Lower(name) != name
    ensures ProcessCommand(name, args, user, st, env) == Reply(Fail(HandlerMissing(name)), st)
  {
    HandlerNamesLowerCase();
    if name in HandlerNames {
      LowerOfLowerCase(name);
      assert false;
    }
    NoHandlerMeansNotImplemented(name, args, user, st, env);
  }

  /** Only `_handle_start` lets exceptions escape; the barrier turns them
      into a failure whose text is the exception text cut to 100 characters. */
  lemma CrashesComeFromStart(name: string, args: seq<string>, user: UserData, st: State, env: Env)
    requires ProcessCommand(name, args, user, st, env).response.kind.Crashed?
    ensures name == "start" && HandleStart(user).Failure?
    ensures ProcessCommand(name, args, user, st, env).response == CrashResponse(HandleStart(user).error)
  {
    var def := GetCommand(name).value;
    assert EffectiveRole(user) in def.permissions && ValidateArgs(name, args).Valid? && name in HandlerNames;
    var d := Dispatch(name, args, user, st, env);
    assert d.response.kind.Crashed?;
  }
}

=== FILE: properties.dfy ===
/**
 * Properties that relate several operations: what one handler writes and
 * another reads back, how the chat parser feeds the pipeline, and what a
 * freshly created user may do.
 */
module Properties {
  import opened Wrappers
  import opened Text
  import opened Collections
  import opened Registry
  import opened Plans
  import opened Records
  import opened Handlers
  import opened Processor
  import opened Accounts
  import opened Gateway

  // ----------------------------------------------------------- store helpers

  /** Appending a document extends the caller's view by that document when
      it carries the caller's chat id, and leaves it alone otherwise. */
  lemma OwnedAppend(store: seq<Subscription>, s: Subscription, chatId: Option<ChatId>)
    ensures Owned(store + [s], chatId) == Owned(store, chatId) + (if s.doc.chatId == chatId then [s] else [])
  {
    FilterAppend(store, [s], OwnedBy(chatId));
    assert [s][1..] == [];
  }

  /** No two documents share an id. */
  predicate UniqueIds(store: seq<Subscription>) {
    forall i, j :: 0 <= i < j < |store| ==> store[i].id != store[j].id
  }

  /** Removing an id that only position `k` carries removes exactly that document. */
  lemma RemoveUniqueId(store: seq<Subscription>, k: int)
    requires UniqueIds(store)
    requires 0 <= k < |store|
    ensures RemoveId(store, store[k].id) == store[..k] + store[k + 1..]
  {
    FilterDropsOne(store, k, IdIsNot(store[k].id));
  }

  // -------------------------------------------------------------- add, list

  /** After a successful `add`, `list` shows the caller's earlier documents
      followed by the new one, whose status counts days from today to the
      expiry date given to `add`. */
  lemma AddThenListShowsRecord(args: seq<string>, user: UserData, st: State, env: Env)
    requires HandleAdd(args, user, st, env).response.success
    requires var owned := Owned(st.store, user.chatId);
      forall i :: 0 <= i < |owned| ==> Listable(owned[i].doc, env)
    ensures var added := HandleAdd(args, user, st, env);
      var owned := Owned(st.store, user.chatId);
      var s := Subscription(env.newId, added.response.data.subscription);
      var shown := HandleList(user, added.state.store, env);
      && shown.success
      && shown.data == SubscriptionList(owned + [s])
      && shown.kind.Listing?
      && shown.kind.statuses[|owned|] == Classify(env.parseDate(args[3]).value - env.today, ListWarningDays)
  {
    var added := HandleAdd(args, user, st, env);
    var owned := Owned(st.store, user.chatId);
    var s := Subscription(env.newId, added.response.data.subscription);
    OwnedAppend(st.store, s, user.chatId);
    var after := owned + [s];
    assert Owned(added.state.store, user.chatId) == after;
    assert forall i :: 0 <= i < |after| ==> Listable(after[i].doc, env) by {
      forall i | 0 <= i < |after| ensures Listable(after[i].doc, env) {
        if i < |owned| { assert after[i] == owned[i]; } else { assert after[i] == s; }
      }
    }
    assert after[|owned|] == s;
  }

  // ------------------------------------------------------------ add, delete

  /** Deleting by the id `add` just returned removes that document and
      nothing else, when no earlier id collides with it. */
  lemma AddThenDeleteRestores(args: seq<string>, user: UserData, st: State, env: Env)
    requires HandleAdd(args, user, st, env).response.success
    requires forall i :: 0 <= i < |st.store| ==> st.store[i].id != env.newId
    requires var owned := Owned(st.store, user.chatId);
      forall i :: 0 <= i < |owned| ==> !StartsWith(owned[i].id, env.newId)
    ensures var added := HandleAdd(args, user, st, env);
      var removed := HandleDelete([env.newId], user, added.state);
      && removed.response.success
      && removed.response.data == DeletedSubscription(added.response.data.subscription)
      && removed.state == st
  {
    var added := HandleAdd(args, user, st, env);
    var owned := Owned(st.store, user.chatId);
    var s := Subscription(env.newId, added.response.data.subscription);
    OwnedAppend(st.store, s, user.chatId);
    FirstMatchIsLast(owned, s, env.newId);
    RemoveLast(st.store, s);
  }

  /** When no earlier id starts with `query`, the first match of the last
      document's own id is that document. */
  lemma FirstMatchIsLast(owned: seq<Subscription>, s: Subscription, query: string)
    requires s.id == query
    requires forall i :: 0 <= i < |owned| ==> !StartsWith(owned[i].id, query)
    ensures FirstIndex(owned + [s], IdMatches(query)) == Some(|owned|)
  {
    var after := owned + [s];
    assert after[|owned|] == s;
    assert forall i :: 0 <= i < |owned| ==> after[i] == owned[i];
  }

  /** Removing the id of a document appended last, whose id no other
      document carries, gives back the collection before the append. */
  lemma RemoveLast(store: seq<Subscription>, s: Subscription)
    requires forall i :: 0 <= i < |store| ==> store[i].id != s.id
    ensures RemoveId(store + [s], s.id) == store
  {
    var after := store + [s];
    assert forall i :: 0 <= i < |store| ==> after[i] == store[i];
    FilterDropsOne(after, |store|, IdIsNot(s.id));
    assert after[..|store|] == store;
  }

  /** With unique ids, a successful `delete` removes exactly one of the
      caller's documents: the one at some position `k` whose id starts with
      the argument. */
  lemma DeleteRemovesExactlyOne(args: seq<string>, user: UserData, st: State)
    requires UniqueIds(st.store)
    requires HandleDelete(args, user, st).response.success
    ensures |args| > 0
    ensures var removed := HandleDelete(args, user, st);
      exists k :: 0 <= k < |st.store|
        && st.store[k].doc.chatId == user.chatId
        && StartsWith(st.store[k].id, args[0])
        && removed.state.store == st.store[..k] + st.store[k + 1..]
        && |removed.state.store| == |st.store| - 1
  {
    var removed := HandleDelete(args, user, st);
    var owned := Owned(st.store, user.chatId);
    var i :| 0 <= i < |owned|
      && StartsWith(owned[i].id, args[0])
      && removed.state.store == RemoveId(st.store, owned[i].id);
    var k :| 0 <= k < |st.store| && st.store[k] == owned[i];
    RemoveUniqueId(st.store, k);
    assert st.store[k].doc.chatId == user.chatId && StartsWith(st.store[k].id, args[0]);
  }

  // ------------------------------------------------------ stats, reminders

  /** The documents `stats` counts as expiring are the ones a reminder
      covers, so the reminder reports the same number. */
  lemma StatsExpiringMatchesReminder(user: UserData, st: State, env: Env)
    requires HandleStats(user, st.store, env).success
    requires HandleSendReminder(user, st, env).response.success
    ensures var n := HandleStats(user, st.store, env).data.expiring;
      var sent := HandleSendReminder(user, st, env);
      && (n == 0 ==> sent.response.kind == NothingExpiring && sent.state.outbox == st.outbox)
      && (n > 0 ==> sent.response.kind == ReminderSent(n) && |sent.state.outbox| == |st.outbox| + 1
                    && |sent.state.outbox[|st.outbox|].covers| == n)
  {
  }

  /** The week-ahead status `search` shows is "expiring soon" exactly for
      the documents `stats` counts as expiring and `sendreminder` selects. */
  lemma DueIffWeekWarning(s: Subscription, env: Env)
    ensures DueWithinWeek(env)(s) <==> WeekStatus(env)(s) == ExpiringSoon
    ensures PastExpiry(env)(s) <==> WeekStatus(env)(s) == Expired
    ensures BeyondWeek(env)(s) <==> WeekStatus(env)(s) == Active
  {
  }

  /** The 3-day warning of `list` lies inside the 7-day warning of `search`:
      both agree on what has expired, and a document `list` calls active
      unless it is in its last week. */
  lemma ThresholdsNest(d: int)
    ensures Classify(d, ListWarningDays) == Expired <==> Classify(d, WeekWarningDays) == Expired
    ensures Classify(d, ListWarningDays) == ExpiringSoon ==> Classify(d, WeekWarningDays) == ExpiringSoon
    ensures Classify(d, WeekWarningDays) == Active ==> Classify(d, ListWarningDays) == Active
    ensures Classify(d, ListWarningDays) != Classify(d, WeekWarningDays) <==> 3 < d <= 7
  {
  }

  // ---------------------------------------------------------------- search

  /** An empty keyword occurs in every field, so it finds all the caller's documents. */
  lemma EmptyKeywordFindsAll(user: UserData, store: seq<Subscription>, env: Env)
    requires HandleSearch([""], user, store, env).success
    ensures HandleSearch([""], user, store, env).data.results == Owned(store, user.chatId)
  {
    var owned := Owned(store, user.chatId);
    assert Lower("") == "";
    forall i | 0 <= i < |owned| ensures KeywordMatches("")(owned[i]) {
      EmptyContained(FieldText(owned[i].doc.username));
    }
    FilterKeepsAll(owned, KeywordMatches(""));
  }

  // ------------------------------------------------------------ help, upgrade

  /** Every name the command index of `help` lists can be asked about, and
      `help` then describes that command. */
  lemma HelpIndexEntriesResolve(user: UserData, n: string)
    requires n in HandleHelp([], user).data.names
    ensures var r := HandleHelp([n], user);
      && r.success && r.kind == HelpFor(n)
      && r.data.CommandHelpData? && (n, r.data.definition) in Commands
  {
    var role := user.role.GetOr("free");
    var names := HandleHelp([], user).data.names;
    var i :| 0 <= i < |names| && names[i] == n;
    assert VisibleTo(n, role);
    var j :| 0 <= j < |Commands| && Commands[j].0 == n && role in Commands[j].1.permissions;
    CommandTableWellFormed();
    assert n != "" && Lower(n) == n;
    assert [n][0] == n;
  }

  /** Every plan the plan index of `upgrade` lists can be asked about by its
      key, and `upgrade` then shows that plan. */
  lemma PlanIndexKeysResolve(user: UserData, key: string)
    requires key in Keys(SubscriptionPlans)
    ensures var r := HandleUpgrade([key], user);
      && r.success && r.kind == PlanDetails && r.redirect == Some("/upgrade")
      && r.data == PlanInfo(Get(SubscriptionPlans, key).value)
  {
    PlanKeysLowerCase();
    LowerOfLowerCase(key);
    assert [key][0] == key;
  }

  // ------------------------------------------------------------- the pipeline

  /** An auto-created user may run `start`, which welcomes them to the free
      plan and sends them to the dashboard without touching any state. */
  lemma FreshUserCanStart(chatId: Option<ChatId>, username: Option<string>, uuidText: string, now: int,
                          st: State, env: Env)
    ensures var u := NewUser(chatId, username, uuidText, now);
      ProcessCommand("start", [], u, st, env) ==
        Reply(Response(true, Welcome(FreePlan.name), UserInfo(u), Some("/dashboard")), st)
  {
    var u := NewUser(chatId, username, uuidText, now);
    assert Commands[0] == ("start", StartCommand);
    KnownCommand("start", StartCommand);
    assert EffectiveRole(u) in StartCommand.permissions;
    assert ValidateArgs("start", []) == Valid;
    assert "start" in HandlerNames;
    FreePlanTerms();
    assert HandleStart(u) == Success(Response(true, Welcome(FreePlan.name), UserInfo(u), Some("/dashboard")));
    assert Dispatch("start", [], u, st, env) ==
      Reply(Response(true, Welcome(FreePlan.name), UserInfo(u), Some("/dashboard")), st);
  }

  /** An auto-created user is refused a known command exactly when the
      command is one of the four that the `free` role may not run. */
  lemma FreshUserPermissions(name: string, args: seq<string>, chatId: Option<ChatId>, username: Option<string>,
                             uuidText: string, now: int, st: State, env: Env)
    requires GetCommand(name).Some?
    ensures var u := NewUser(chatId, username, uuidText, now);
      ProcessCommand(name, args, u, st, env).response.kind == PermissionDenied <==>
        Lower(name) in ["sendreminder", "stats", "forcedreminder", "promote"]
  {
    var u := NewUser(chatId, username, uuidText, now);
    assert EffectiveRole(u) == "free";
    PermissionDeniedIff(name, args, u, st, env);
    FreeRoleExcluded(name);
  }

  /** The commands whose permissions leave out `free`, by name. */
  lemma FreeRoleExcluded(name: string)
    requires GetCommand(name).Some?
    ensures "free" !in GetCommand(name).value.permissions <==>
      Lower(name) in ["sendreminder", "stats", "forcedreminder", "promote"]
  {
    var def := GetCommand(name).value;
    var j :| 0 <= j < |Commands| && Commands[j] == (Lower(name), def);
    FreeRoleVisibility();
  }

  /** `add` accepts at most five arguments, so an amount that reaches the
      handler is a single token even though the handler joins `args[4:]`
      with spaces. */
  lemma AddAmountIsOneToken(args: seq<string>, user: UserData, st: State, env: Env)
    requires ProcessCommand("add", args, user, st, env).response.success
    ensures |args| == 4 || |args| == 5
    ensures var r := ProcessCommand("add", args, user, st, env);
      r.response.data.AddedSubscription? &&
      r.response.data.subscription.amount == Some(if |args| == 4 then "0" else args[4])
  {
    AddReachesHandler(args, user, st, env);
    AddArgumentCount(args);
    AddedAmount(args, user, st, env);
  }

  /** With at most five arguments, the amount `add` stores is the fifth
      argument, or "0" without one. */
  lemma AddedAmount(args: seq<string>, user: UserData, st: State, env: Env)
    requires |args| <= 5
    requires HandleAdd(args, user, st, env).response.success
    ensures HandleAdd(args, user, st, env).response.data.subscription.amount ==
      Some(if |args| == 4 then "0" else args[4])
  {
    if |args| == 5 {
      assert JoinSpace(args[4..]) == args[4] by {
        assert args[4..] == [args[4]];
      }
    }
  }

  /** A successful `add` went through the checks to its handler. */
  lemma AddReachesHandler(args: seq<string>, user: UserData, st: State, env: Env)
    requires ProcessCommand("add", args, user, st, env).response.success
    ensures ValidateArgs("add", args).Valid?
    ensures ProcessCommand("add", args, user, st, env) == HandleAdd(args, user, st, env)
  {
    AddResolves();
    assert "add" in HandlerNames;
  }

  /** `add` resolves to its table entry. */
  lemma AddResolves()
    ensures GetCommand("add") == Some(AddCommand)
  {
    assert Commands[2] == ("add", AddCommand);
    KnownCommand("add", AddCommand);
  }

  /** `add` validates exactly with four or five arguments. */
  lemma AddArgumentCount(args: seq<string>)
    ensures ValidateArgs("add", args).Valid? <==> |args| == 4 || |args| == 5
  {
    AddResolves();
    AddArity();
    ValidIffWithinArity("add", args);
  }

  /** `add` takes four required arguments and one optional one. */
  lemma AddArity()
    ensures |RequiredArgs(AddCommand.args)| == 4 && |AddCommand.args| == 5
  {
    var head := ["username", "email", "service", "expiry"];
    assert AddCommand.args == head + ["amount?"];
    assert forall i :: 0 <= i < |head| ==> IsRequiredArg(head[i]) by {
      assert IsRequiredArg(head[0]) && IsRequiredArg(head[1]);
      assert IsRequiredArg(head[2]) && IsRequiredArg(head[3]);
    }
    RequiredBeforeOptional(head, "amount?");
  }

  /** The required arguments of a list of required ones followed by one
      optional argument are that list. */
  lemma RequiredBeforeOptional(head: seq<string>, last: string)
    requires forall i :: 0 <= i < |head| ==> IsRequiredArg(head[i])
    requires IsOptionalArg(last)
    ensures RequiredArgs(head + [last]) == head
  {
    FilterKeepsAll(head, IsRequiredArg);
    assert [last][1..] == [];
    assert Filter([last], IsRequiredArg) == [];
    FilterAppend(head, [last], IsRequiredArg);
  }

  /** The names of registered commands that have no handler. */
  lemma UnhandledNames()
    ensures forall n :: n in CommandNames && n !in HandlerNames ==> n == "forcedreminder" || n == "promote"
  {
  }

  /** A name that comes out of the chat parser is lower case, so the only
      commands it can find without a handler are `forcedreminder` and
      `promote`. */
  lemma ParsedNamesFindTheirHandler(text: string, user: UserData, st: State, env: Env)
    requires ParseCommand(text).Command?
    ensures var p := ParseCommand(text);
      ProcessCommand(p.name, p.args, user, st, env).response.kind.HandlerMissing? ==>
        p.name == "forcedreminder" || p.name == "promote"
  {
    var p := ParseCommand(text);
    if ProcessCommand(p.name, p.args, user, st, env).response.kind.HandlerMissing? {
      LowerCaseNameIsKey(p.name);
      UnhandledNames();
    }
  }

  /** A lower-case name that lookup resolves is itself a table key. */
  lemma LowerCaseNameIsKey(name: string)
    requires IsLowerCase(name) && GetCommand(name).Some?
    ensures name in CommandNames
  {
    LowerOfLowerCase(name);
    var j :| 0 <= j < |Commands| && Commands[j] == (name, GetCommand(name).value);
    CommandKeys();
    assert CommandNames[j] == name;
  }
}

=== FILE: records.dfy ===
/**
 * The values the command processor consumes and produces: subscription
 * documents, the caller's user record, the response envelope, the mail
 * log and the environment (clock, date parser, id generator, mail server).
 */
module Records {
  import opened Wrappers
  import opened Text
  import opened Plans
  import opened Registry

  /** Chat identifiers are Python ints (negative for group chats). */
  type ChatId = int

  /**
   * The fields of a stored subscription document. `None` marks a key the
   * document lacks; `chatId == None` is a stored null.
   */
  datatype Doc = Doc(
    chatId: Option<ChatId>,
    username: Option<string>,
    email: Option<string>,
    service: Option<string>,
    expiry: Option<string>,
    amount: Option<string>,
    createdAt: Option<int>,
    note: Option<string>)

  /** A stored document together with its generated document id. */
  datatype Subscription = Subscription(id: string, doc: Doc)

  /** The caller's user record as the processor receives it; `None` marks an absent key. */
  datatype UserData = UserData(
    uniqueId: Option<string>,
    telegramUsername: Option<string>,
    chatId: Option<ChatId>,
    planType: Option<string>,
    role: Option<string>,
    maxSubscriptions: Option<int>,
    isActive: Option<bool>,
    expiryDate: Option<int>,
    createdAt: Option<int>,
    createdVia: Option<string>)

  /** One reminder mail: recipient, the name it greets, the documents it lists. */
  datatype Mail = Mail(recipient: string, greeting: string, covers: seq<Doc>)

  /** The mutable world the processor acts on: the subscription collection
      in iteration order, and the log of mails handed to the mail server. */
  datatype State = State(store: seq<Subscription>, outbox: seq<Mail>)

  /**
   * What the processor takes from its surroundings: today's day number,
   * the current timestamp, the partial `%Y-%m-%d` parser (day numbers),
   * the id the store will generate for the next document, and whether the
   * mail server accepts the next message.
   */
  datatype Env = Env(
    today: int,
    now: int,
    parseDate: string -> Option<int>,
    newId: string,
    mailDelivers: bool)

  /** Days from today to a document's expiry, when the expiry is present and parses. */
  function DaysLeft(doc: Doc, env: Env): Option<int> {
    match doc.expiry
    case None => None
    case Some(e) =>
      match env.parseDate(e)
      case None => None
      case Some(day) => Some(day - env.today)
  }

  datatype Status = Expired | ExpiringSoon | Active | Unknown

  /** `list` warns three days ahead; `search` and `stats` a week ahead. */
  const ListWarningDays: nat := 3
  const WeekWarningDays: nat := 7

  /** The expiry status of a document with `daysLeft` days to go. */
  function Classify(daysLeft: int, soon: nat): (s: Status)
    ensures s == Expired <==> daysLeft < 0
    ensures s == ExpiringSoon <==> 0 <= daysLeft <= soon
    ensures s == Active <==> soon < daysLeft
  {
    if daysLeft < 0 then Expired
    else if daysLeft <= soon then ExpiringSoon
    else Active
  }

  /** The exception a handler can raise. */
  datatype Fault =
    | MissingKey(key: string)          // KeyError on an absent key
    | UnknownPlan(planKey: string)     // KeyError on the plan table
    | BadDate(text: string)            // ValueError from strptime
    | NotEnoughValues(got: nat)        // ValueError from tuple unpacking
    | IndexOutOfRange                  // IndexError on args[0]
    | MailFailed(reason: string)       // any error from the mail server

  /** `str(e)` of the exception (quoting of `repr` simplified to plain quotes). */
  function ErrorText(f: Fault): string {
    match f
    case MissingKey(k) => "'" + k + "'"
    case UnknownPlan(k) => "'" + k + "'"
    case BadDate(t) => "time data '" + t + "' does not match format '%Y-%m-%d'"
    case NotEnoughValues(n) => "not enough values to unpack (expected 4, got " + NatToString(n) + ")"
    case IndexOutOfRange => "list index out of range"
    case MailFailed(reason) => reason
  }

  /** The kind of message a response carries (its Markdown text is not modelled). */
  datatype Kind =
    | NoSuchCommand(name: string)
    | PermissionDenied
    | BadArguments(check: ArgCheck, usageOf: string)  // usage and examples of `HelpOf(usageOf)`
    | HandlerMissing(command: string)
    | Crashed(detail: string)
    | Failed(fault: Fault)
    | Welcome(planName: string)
    | NoSubscriptions
    | Listing(statuses: seq<Status>)
    | InvalidDate
    | LimitReached
    | Added
    | NotFound(searched: string, hints: seq<string>)
    | Removed
    | NoMatches(keyword: string)
    | HelpUnavailable(requested: string)
    | HelpFor(commandName: string)
    | CommandIndex
    | StatsReport
    | NothingExpiring
    | ReminderSent(count: nat)
    | PlanDetails
    | InvalidPlan(plan: string, available: seq<string>)
    | PlanIndex

  /** The structured `data` of a response. */
  datatype Payload =
    | NoData
    | UserInfo(user: UserData)
    | SubscriptionList(listed: seq<Subscription>)
    | AddedSubscription(subscriptionId: string, subscription: Doc)
    | DeletedSubscription(deleted: Doc)
    | SearchResults(results: seq<Subscription>)
    | CommandHelpData(definition: CommandDefinition)
    | AvailableCommands(names: seq<string>)
    | StatsData(total: nat, active: nat, expiring: nat, expired: nat, planInfo: Plan, userInfo: UserData)
    | ExpiringSubscriptions(expiringDocs: seq<Doc>)
    | PlanInfo(plan: Plan)
    | AllPlans(plans: seq<(string, Plan)>, currentPlan: string)

  /** `CommandResponse` (its parse mode is always Markdown and is omitted). */
  datatype Response = Response(success: bool, kind: Kind, data: Payload, redirect: Option<string>)

  /** A response together with the state it leaves behind. */
  datatype Reply = Reply(response: Response, state: State)

  function Fail(kind: Kind): Response {
    Response(false, kind, NoData, None)
  }
}

=== FILE: registry.dfy ===
/**
 * The command registry: the single table of command definitions shared by
 * the chat bot and the web dashboard, with case-insensitive lookup,
 * filtering by role and argument-count validation.
 */
module Registry {
  import opened Wrappers
  import opened Text
  import opened Collections

  /** One command: its name, its ordered argument names (a trailing `?`
      marks an optional one) and the roles allowed to run it. The help
      material of the command is kept in `CommandHelp` under the same name. */
  datatype CommandDefinition = CommandDefinition(
    name: string,
    args: seq<string>,
    permissions: seq<string>)

  /** The display-only fields of a command definition. */
  datatype HelpMaterial = HelpMaterial(
    description: string,
    webUiComponent: string,
    helpText: string,
    examples: seq<string>)

  const Everyone: seq<string> := ["free", "user", "manager", "admin", "owner"]
  const Paying: seq<string> := ["user", "manager", "admin", "owner"]
  const Admins: seq<string> := ["admin", "owner"]

  const StartCommand := CommandDefinition("start", [], Everyone)
  const ListCommand := CommandDefinition("list", [], Everyone)
  const AddCommand := CommandDefinition("add", ["username", "email", "service", "expiry", "amount?"], Everyone)
  const DeleteCommand := CommandDefinition("delete", ["subscription_id"], Everyone)
  const SearchCommand := CommandDefinition("search", ["keyword"], Everyone)
  const SendReminderCommand := CommandDefinition("sendreminder", [], Paying)
  const UpgradeCommand := CommandDefinition("upgrade", ["plan_type?"], Everyone)
  const StatsCommand := CommandDefinition("stats", [], Paying)
  const HelpCommand := CommandDefinition("help", ["command?"], Everyone)
  const ForcedReminderCommand := CommandDefinition("forcedreminder", [], Admins)
  const PromoteCommand := CommandDefinition("promote", ["user_id", "role"], Admins)

  /** The command table, in declaration order (Python dicts keep it). */
  const Commands: seq<(string, CommandDefinition)> := [
    ("start", StartCommand),
    ("list", ListCommand),
    ("add", AddCommand),
    ("delete", DeleteCommand),
    ("search", SearchCommand),
    ("sendreminder", SendReminderCommand),
    ("upgrade", UpgradeCommand),
    ("stats", StatsCommand),
    ("help", HelpCommand),
    ("forcedreminder", ForcedReminderCommand),
    ("promote", PromoteCommand)
  ]

  const StartHelp := HelpMaterial(
    "Welcome message and account information", "dashboard_welcome",
    "Shows welcome message and account details",
    ["/start"])

  const ListHelp := HelpMaterial(
    "List all subscriptions with expiry status", "subscriptions_table",
    "Display all your subscriptions with expiry dates and status",
    ["/list"])

  const AddHelp := HelpMaterial(
    "Add new subscription", "add_subscription_form",
    "Add a new subscription with username, email, service, expiry date, and optional amount",
    ["/add john_netflix john@gmail.com Netflix 2025-12-31",
     "/add jane_spotify jane@gmail.com Spotify 2025-06-15 299"])

  const DeleteHelp := HelpMaterial(
    "Delete subscription by ID", "delete_button",
    "Delete a subscription using its ID (get ID from /list command)",
    ["/delete abc12345", "/delete gRNNegwP"])

  const SearchHelp := HelpMaterial(
    "Search subscriptions by keyword", "search_form",
    "Search subscriptions by service name, username, or email",
    ["/search Netflix", "/search john@gmail.com", "/search john_netflix"])

  const SendReminderHelp := HelpMaterial(
    "Send email reminders for expiring subscriptions", "reminder_button",
    "Send email notifications for subscriptions expiring in the next 7 days",
    ["/sendreminder"])

  const UpgradeHelp := HelpMaterial(
    "Upgrade subscription plan", "upgrade_form",
    "Upgrade to a higher plan or view available plans",
    ["/upgrade", "/upgrade premium", "/upgrade yearly_unlimited"])

  const StatsHelp := HelpMaterial(
    "Show account statistics", "stats_dashboard",
    "Display account statistics including subscription count, expiring subscriptions, and plan details",
    ["/stats"])

  const HelpHelp := HelpMaterial(
    "Show available commands and help", "help_modal",
    "Show all available commands or detailed help for a specific command",
    ["/help", "/help add", "/help search"])

  const ForcedReminderHelp := HelpMaterial(
    "Force send reminders to all users (Admin only)", "admin_reminder_button",
    "Send reminders to all users regardless of expiry dates (Admin only)",
    ["/forcedreminder"])

  const PromoteHelp := HelpMaterial(
    "Promote user to manager role (Admin only)", "admin_user_management",
    "Promote a user to manager or admin role",
    ["/promote FREE12345678 manager", "/promote USER87654321 admin"])

  /** The help material of every command, under the command's name. */
  const CommandHelp: seq<(string, HelpMaterial)> := [
    ("start", StartHelp),
    ("list", ListHelp),
    ("add", AddHelp),
    ("delete", DeleteHelp),
    ("search", SearchHelp),
    ("sendreminder", SendReminderHelp),
    ("upgrade", UpgradeHelp),
    ("stats", StatsHelp),
    ("help", HelpHelp),
    ("forcedreminder", ForcedReminderHelp),
    ("promote", PromoteHelp)
  ]

  /** An argument name ending in `?` is optional. */
  predicate IsOptionalArg(a: string) {
    |a| > 0 && a[|a| - 1] == '?'
  }

  predicate IsRequiredArg(a: string) {
    !IsOptionalArg(a)
  }

  /** No required argument comes after an optional one. */
  predicate OptionalArgsTrail(args: seq<string>) {
    forall i, j :: 0 <= i < j < |args| && IsOptionalArg(args[i]) ==> IsOptionalArg(args[j])
  }

  function RequiredArgs(args: seq<string>): seq<string> {
    Filter(args, IsRequiredArg)
  }

  function OptionalArgs(args: seq<string>): seq<string> {
    Filter(args, IsOptionalArg)
  }

  /** Every argument is either required or optional, so the two lists
      partition the argument specification. */
  lemma {:induction false} ArgsPartition(args: seq<string>)
    ensures |RequiredArgs(args)| + |OptionalArgs(args)| == |args|
  {
    if args != [] {
      ArgsPartition(args[1..]);
    }
  }

  /** The table's keys, in order. */
  const CommandNames: seq<string> := [
    "start", "list", "add", "delete", "search", "sendreminder",
    "upgrade", "stats", "help", "forcedreminder", "promote"]

  /** An entry whose key is its definition's nonempty lower-case name and
      whose optional arguments trail. */
  predicate WellFormedEntry(e: (string, CommandDefinition)) {
    && e.0 == e.1.name
    && e.0 != ""
    && IsLowerCase(e.0)
    && OptionalArgsTrail(e.1.args)
  }

  lemma CommandKeys()
    ensures Keys(Commands) == CommandNames
  {
    assert |Commands| == |CommandNames|;
    forall i | 0 <= i < |Commands|
      ensures Commands[i].0 == CommandNames[i]
    {
    }
  }

  lemma CommandNamesDistinct()
    ensures forall i, j :: 0 <= i < j < |CommandNames| ==> CommandNames[i] != CommandNames[j]
  {
  }

  lemma EntriesWellFormed()
    ensures forall i :: 0 <= i < |Commands| ==> WellFormedEntry(Commands[i])
  {
    MemberCommandsWellFormed();
    OtherCommandsWellFormed();
    AdminCommandsWellFormed();
  }

  lemma MemberCommandsWellFormed()
    ensures WellFormedEntry(("start", StartCommand))
    ensures WellFormedEntry(("list", ListCommand))
    ensures WellFormedEntry(("add", AddCommand))
    ensures WellFormedEntry(("delete", DeleteCommand))
    ensures WellFormedEntry(("search", SearchCommand))
  {
  }

  lemma OtherCommandsWellFormed()
    ensures WellFormedEntry(("sendreminder", SendReminderCommand))
    ensures WellFormedEntry(("upgrade", UpgradeCommand))
    ensures WellFormedEntry(("stats", StatsCommand))
    ensures WellFormedEntry(("help", HelpCommand))
  {
  }

  lemma AdminCommandsWellFormed()
    ensures WellFormedEntry(("forcedreminder", ForcedReminderCommand))
    ensures WellFormedEntry(("promote", PromoteCommand))
  {
  }

  /** Facts about the table that the rest of the model relies on. */
  lemma CommandTableWellFormed()
    ensures DistinctKeys(Commands)
    ensures forall i :: 0 <= i < |Commands| ==> Commands[i].0 == Commands[i].1.name
    ensures forall i :: 0 <= i < |Commands| ==> Commands[i].0 != ""
    ensures forall i :: 0 <= i < |Commands| ==> Lower(Commands[i].0) == Commands[i].0
    ensures forall i :: 0 <= i < |Commands| ==> OptionalArgsTrail(Commands[i].1.args)
  {
    CommandKeys();
    CommandNamesDistinct();
    EntriesWellFormed();
    forall i | 0 <= i < |Commands|
      ensures Lower(Commands[i].0) == Commands[i].0
    {
      LowerOfLowerCase(Commands[i].0);
    }
  }

  /** `get_command`: the definition stored under the lower-cased name. */
  function GetCommand(name: string): (r: Option<CommandDefinition>)
    ensures r.None? <==> Lower(name) !in Keys(Commands)
    ensures r.Some? ==> (Lower(name), r.value) in Commands && r.value.name == Lower(name)
  {
    CommandTableWellFormed();
    Get(Commands, Lower(name))
  }

  /** `get_all_commands`: the whole table; each entry is what lookup of its key returns. */
  function AllCommands(): (r: seq<(string, CommandDefinition)>)
    ensures DistinctKeys(r)
    ensures forall k, d :: (k, d) in r ==> GetCommand(k) == Some(d)
    ensures forall name :: GetCommand(name).Some? ==> (Lower(name), GetCommand(name).value) in r
  {
    CommandTableWellFormed();
    forall k, d | (k, d) in Commands
      ensures GetCommand(k) == Some(d)
    {
      GetStored(Commands, k, d);
    }
    Commands
  }

  /** A table entry is what lookup of its own key returns. */
  lemma KnownCommand(name: string, def: CommandDefinition)
    requires (name, def) in Commands
    ensures GetCommand(name) == Some(def)
  {
    var all := AllCommands();
  }

  /** The help table covers exactly the commands, and every command comes
      with at least one example. */
  lemma HelpTableWellFormed()
    ensures Keys(CommandHelp) == CommandNames
    ensures forall i :: 0 <= i < |CommandHelp| ==> |CommandHelp[i].1.examples| > 0
  {
    assert |CommandHelp| == |CommandNames|;
    forall i | 0 <= i < |CommandHelp|
      ensures CommandHelp[i].0 == CommandNames[i]
    {
    }
    HelpExamples();
  }

  lemma HelpExamples()
    ensures |StartHelp.examples| > 0 && |ListHelp.examples| > 0 && |AddHelp.examples| > 0
    ensures |DeleteHelp.examples| > 0 && |SearchHelp.examples| > 0 && |SendReminderHelp.examples| > 0
    ensures |UpgradeHelp.examples| > 0 && |StatsHelp.examples| > 0 && |HelpHelp.examples| > 0
    ensures |ForcedReminderHelp.examples| > 0 && |PromoteHelp.examples| > 0
  {
  }

  /** The help text, description and examples of the command called `name`
      (a table key). */
  function HelpOf(name: string): (h: Option<HelpMaterial>)
    ensures h.Some? <==> name in CommandNames
    ensures h.Some? ==> (name, h.value) in CommandHelp && |h.value.examples| > 0
  {
    HelpTableWellFormed();
    Get(CommandHelp, name)
  }

  /** Every definition that lookup returns has its help material. */
  lemma DefinedCommandsHaveHelp(name: string)
    requires GetCommand(name).Some?
    ensures HelpOf(GetCommand(name).value.name).Some?
  {
    CommandKeys();
  }

  /** The `role in cmd.permissions` test of the role filter. */
  function Permits(role: string): ((string, CommandDefinition)) -> bool {
    (e: (string, CommandDefinition)) => role in e.1.permissions
  }

  /** `get_commands_for_role`: the sub-dictionary of commands whose
      permissions list the role, in table order. */
  function CommandsForRole(role: string): (r: seq<(string, CommandDefinition)>)
    ensures forall i :: 0 <= i < |r| ==> r[i] in Commands && role in r[i].1.permissions
    ensures forall i :: 0 <= i < |Commands| && role in Commands[i].1.permissions ==> Commands[i] in r
    ensures DistinctKeys(r)
    ensures SubsequenceOf(r, Commands)
  {
    CommandTableWellFormed();
    FilterKeepsKeysDistinct(Commands, Permits(role));
    FilterKeepsOrder(Commands, Permits(role));
    Filter(Commands, Permits(role))
  }

  /** The role's commands form a sub-dictionary of the table: each entry is
      exactly what lookup of its key returns. */
  lemma CommandsForRoleIsSubMap(role: string)
    ensures forall k, d :: (k, d) in CommandsForRole(role) ==> GetCommand(k) == Some(d)
  {
    var all := AllCommands();
  }

  /** The diagnostic of `validate_command_args`. */
  datatype ArgCheck =
    | Valid
    | UnknownCommand(name: string)
    | MissingArguments(expected: seq<string>)
    | TooManyArguments(maximum: nat)

  /** `validate_command_args`. */
  function ValidateArgs(name: string, args: seq<string>): (r: ArgCheck)
    ensures GetCommand(name).None? <==> r == UnknownCommand(name)
    ensures GetCommand(name).Some? ==>
      var spec := GetCommand(name).value.args;
      && (r.MissingArguments? <==> |args| < |RequiredArgs(spec)|)
      && (r.MissingArguments? ==> r.expected == RequiredArgs(spec))
      && (r.TooManyArguments? <==> |RequiredArgs(spec)| <= |args| && 0 < |spec| < |args|)
      && (r.TooManyArguments? ==> r.maximum == |spec|)
      && (r.Valid? <==> |RequiredArgs(spec)| <= |args| && (|spec| == 0 || |args| <= |spec|))
  {
    match GetCommand(name)
    case None => UnknownCommand(name)
    case Some(cmd) =>
      var required := RequiredArgs(cmd.args);
      var optional := OptionalArgs(cmd.args);
      ArgsPartition(cmd.args);
      if |args| < |required| then MissingArguments(required)
      else
        var maxArgs := |required| + |optional|;
        if |args| > maxArgs && maxArgs > 0 then TooManyArguments(maxArgs)
        else Valid
  }

  /** For a command with k required and m optional arguments, k + m > 0,
      validation succeeds exactly when k <= |args| <= k + m. */
  lemma ValidIffWithinArity(name: string, args: seq<string>)
    requires GetCommand(name).Some?
    requires |GetCommand(name).value.args| > 0
    ensures var spec := GetCommand(name).value.args;
      var k := |RequiredArgs(spec)|;
      var m := |OptionalArgs(spec)|;
      ValidateArgs(name, args).Valid? <==> k <= |args| <= k + m
  {
    ArgsPartition(GetCommand(name).value.args);
  }

  /** A command that declares no arguments accepts any number of extra tokens. */
  lemma ZeroArgCommandsIgnoreExtras(name: string, args: seq<string>)
    requires GetCommand(name).Some? && GetCommand(name).value.args == []
    ensures ValidateArgs(name, args) == Valid
  {
  }

  /** Role `free` may run every command except the four paid or admin ones. */
  lemma FreeRoleVisibility()
    ensures forall i :: 0 <= i < |Commands| ==>
      ("free" in Commands[i].1.permissions <==>
       Commands[i].0 !in ["sendreminder", "stats", "forcedreminder", "promote"])
  {
  }
}

=== FILE: text.dfy ===
/**
 * The string operations of Python that the command layer relies on:
 * `str.lower()`, `str.upper()`, `str.split()`, `' '.join(...)`, `in` on
 * strings, `str.startswith`, slicing and `str(int)`.
 */
module Text {

  predicate IsUpper(c: char) { 'A' <= c <= 'Z' }

  predicate IsLowerLetter(c: char) { 'a' <= c <= 'z' }

  /** Case mapping of one character (ASCII letters only). */
  function LowerChar(c: char): (d: char)
    ensures !IsUpper(d)
    ensures IsUpper(c) ==> d as int == c as int + 32
    ensures !IsUpper(c) ==> d == c
  {
    if IsUpper(c) then (c as int + 32) as char else c
  }

  function UpperChar(c: char): (d: char)
    ensures !IsLowerLetter(d)
    ensures IsLowerLetter(c) ==> d as int == c as int - 32
    ensures !IsLowerLetter(c) ==> d == c
  {
    if IsLowerLetter(c) then (c as int - 32) as char else c
  }

  /** `s.lower()`: every character case-mapped, length kept. */
  function Lower(s: string): (r: string)
    ensures |r| == |s|
    ensures forall i :: 0 <= i < |s| ==> r[i] == LowerChar(s[i])
  {
    if s == [] then [] else [LowerChar(s[0])] + Lower(s[1..])
  }

  /** `s.upper()`. */
  function Upper(s: string): (r: string)
    ensures |r| == |s|
    ensures forall i :: 0 <= i < |s| ==> r[i] == UpperChar(s[i])
  {
    if s == [] then [] else [UpperChar(s[0])] + Upper(s[1..])
  }

  /** A string without upper-case letters. */
  predicate IsLowerCase(s: string) {
    forall i :: 0 <= i < |s| ==> !IsUpper(s[i])
  }

  /** Lower-casing a string that is already lower case changes nothing. */
  lemma LowerOfLowerCase(s: string)
    requires IsLowerCase(s)
    ensures Lower(s) == s
  {
  }

  /** Lower-casing twice changes nothing more than lower-casing once. */
  lemma LowerIdempotent(s: string)
    ensures IsLowerCase(Lower(s))
    ensures Lower(Lower(s)) == Lower(s)
  {
    LowerOfLowerCase(Lower(s));
  }

  /**
   * The characters for which Python's `str.isspace()` holds; `str.split()`
   * with no separator cuts on maximal runs of them.
   */
  predicate IsSpace(c: char) {
    var n := c as int;
    || n == 0x20 || 0x09 <= n <= 0x0D || 0x1C <= n <= 0x1F
    || n == 0x85 || n == 0xA0 || n == 0x1680 || 0x2000 <= n <= 0x200A
    || n == 0x2028 || n == 0x2029 || n == 0x202F || n == 0x205F || n == 0x3000
  }

  /** A token that `str.split()` can return: nonempty and free of whitespace. */
  predicate IsWord(w: string) {
    |w| > 0 && forall i :: 0 <= i < |w| ==> !IsSpace(w[i])
  }

  /** Length of the whitespace-free run that starts `s`. */
  function WordLen(s: string): (n: nat)
    requires s != [] && !IsSpace(s[0])
    ensures 1 <= n <= |s|
    ensures forall i :: 0 <= i < n ==> !IsSpace(s[i])
    ensures n < |s| ==> IsSpace(s[n])
  {
    if |s| == 1 || IsSpace(s[1]) then 1 else 1 + WordLen(s[1..])
  }

  /** `s.split()`: the maximal whitespace-free runs of `s`, in order. */
  function Split(s: string): (r: seq<string>)
    ensures forall k :: 0 <= k < |r| ==> IsWord(r[k])
    decreases |s|
  {
    if s == [] then []
    else if IsSpace(s[0]) then Split(s[1..])
    else
      var n := WordLen(s);
      [s[..n]] + Split(s[n..])
  }

  /** `' '.join(ws)`. */
  function JoinSpace(ws: seq<string>): string {
    if ws == [] then ""
    else if |ws| == 1 then ws[0]
    else ws[0] + " " + JoinSpace(ws[1..])
  }

  /** A word followed by nothing or by whitespace is read back whole. */
  lemma WordLenOfWord(w: string, t: string)
    requires IsWord(w)
    requires t == [] || IsSpace(t[0])
    ensures WordLen(w + t) == |w|
  {
    var s := w + t;
    assert forall i :: 0 <= i < |w| ==> s[i] == w[i];
    assert |w| < |s| ==> s[|w|] == t[0];
  }

  /** Splitting a space-joined list of words gives the words back. */
  lemma {:induction false} SplitJoinSpace(ws: seq<string>)
    requires forall k :: 0 <= k < |ws| ==> IsWord(ws[k])
    ensures Split(JoinSpace(ws)) == ws
  {
    if ws == [] {
    } else if |ws| == 1 {
      var w := ws[0];
      WordLenOfWord(w, []);
      assert w + [] == w;
      assert w[..|w|] == w && w[|w|..] == [];
      assert Split(w) == [w] + Split([]);
    } else {
      var w := ws[0];
      var rest := JoinSpace(ws[1..]);
      var t := " " + rest;
      assert JoinSpace(ws) == w + t;
      WordLenOfWord(w, t);
      var s := w + t;
      assert s[..|w|] == w;
      assert s[|w|..] == t;
      assert Split(s) == [w] + Split(t);
      assert t[1..] == rest;
      assert Split(t) == Split(rest);
      SplitJoinSpace(ws[1..]);
      assert ws == [w] + ws[1..];
    }
  }

  /** `s.split()` is empty exactly when `s` is all whitespace. */
  lemma {:induction false} SplitEmptyIffBlank(s: string)
    ensures Split(s) == [] <==> forall i :: 0 <= i < |s| ==> IsSpace(s[i])
    decreases |s|
  {
    if s != [] && IsSpace(s[0]) {
      SplitEmptyIffBlank(s[1..]);
      assert forall i :: 1 <= i < |s| ==> s[i] == s[1..][i - 1];
    }
  }

  /** Leading whitespace is skipped by `str.split()`. */
  lemma SplitSkipsLeadingSpace(c: char, s: string)
    requires IsSpace(c)
    ensures Split([c] + s) == Split(s)
  {
    assert ([c] + s)[1..] == s;
  }

  /** A word ends at the first whitespace character after it, whatever that
      character is and whatever follows; with `SplitSkipsLeadingSpace` this
      fixes the tokens of every text. */
  lemma SplitWordThenSpace(w: string, c: char, t: string)
    requires IsWord(w) && IsSpace(c)
    ensures Split(w + [c] + t) == [w] + Split(t)
  {
    var s := w + ([c] + t);
    assert w + [c] + t == s;
    WordLenOfWord(w, [c] + t);
    assert s[..|w|] == w;
    assert s[|w|..] == [c] + t;
    SplitSkipsLeadingSpace(c, t);
  }

  /** A text that is one word and nothing else splits into that word. */
  lemma SplitOneWord(w: string)
    requires IsWord(w)
    ensures Split(w) == [w]
  {
    WordLenOfWord(w, []);
    assert w + [] == w;
    assert w[..|w|] == w && w[|w|..] == [];
  }

  /** `s.startswith(p)`. */
  predicate StartsWith(s: string, p: string) {
    |p| <= |s| && s[..|p|] == p
  }

  /** `q in s` on strings, decided left to right. */
  predicate Contains(s: string, q: string)
    decreases |s|
  {
    StartsWith(s, q) || (s != [] && Contains(s[1..], q))
  }

  /** The textbook meaning of "`q` occurs in `s`". */
  ghost predicate OccursAt(s: string, q: string, i: int) {
    0 <= i && i + |q| <= |s| && s[i..i + |q|] == q
  }

  /** `Contains` decides exactly whether `q` occurs somewhere in `s`. */
  lemma {:induction false} ContainsIffOccurs(s: string, q: string)
    ensures Contains(s, q) <==> exists i :: OccursAt(s, q, i)
    decreases |s|
  {
    if StartsWith(s, q) {
      assert OccursAt(s, q, 0);
    } else if s == [] {
    } else {
      ContainsIffOccurs(s[1..], q);
      if exists i :: OccursAt(s[1..], q, i) {
        var i :| OccursAt(s[1..], q, i);
        var t := s[1..];
        var a, b := s[i + 1..i + 1 + |q|], t[i..i + |q|];
        assert forall j :: 0 <= j < |q| ==> a[j] == b[j];
        assert a == b;
        assert OccursAt(s, q, i + 1);
      }
      if exists i :: OccursAt(s, q, i) {
        var i :| OccursAt(s, q, i);
        if i != 0 {
          var t := s[1..];
          var a, b := t[i - 1..i - 1 + |q|], s[i..i + |q|];
          assert forall j :: 0 <= j < |q| ==> a[j] == b[j];
          assert a == b;
          assert OccursAt(t, q, i - 1);
        }
      }
    }
  }

  /** The empty string occurs in every string (`'' in s` is True). */
  lemma EmptyContained(s: string)
    ensures Contains(s, "")
  {
    assert s[..0] == "";
  }

  /** `s[:n]`. */
  function Truncate(s: string, n: nat): (r: string)
    ensures |r| == if |s| <= n then |s| else n
    ensures StartsWith(s, r)
  {
    if |s| <= n then s else s[..n]
  }

  function DigitChar(d: nat): (c: char)
    requires d < 10
    ensures '0' <= c <= '9'
  {
    ('0' as int + d) as char
  }

  predicate IsDigits(s: string) {
    forall i :: 0 <= i < |s| ==> '0' <= s[i] <= '9'
  }

  /** The number a string of decimal digits denotes, most significant first. */
  function DigitsValue(s: string): nat
    requires IsDigits(s)
  {
    if s == [] then 0 else DigitsValue(s[..|s| - 1]) * 10 + (s[|s| - 1] as int - '0' as int)
  }

  /** Decimal digits of a natural number, most significant first, without
      leading zeros. */
  function NatToString(n: nat): (r: string)
    ensures |r| > 0 && IsDigits(r)
    ensures DigitsValue(r) == n
    ensures |r| > 1 ==> r[0] != '0'
  {
    if n < 10 then [DigitChar(n)]
    else
      var front := NatToString(n / 10);
      var r := front + [DigitChar(n % 10)];
      assert r[..|r| - 1] == front;
      r
  }

  /** `str(i)` for a Python int: an optional minus sign, then the digits of
      the magnitude. */
  function IntToString(i: int): (r: string)
    ensures |r| > 0
    ensures i < 0 <==> r[0] == '-'
    ensures var digits := if i < 0 then r[1..] else r;
      |digits| > 0 && IsDigits(digits) && DigitsValue(digits) == if i < 0 then -i else i
    ensures var digits := if i < 0 then r[1..] else r;
      |digits| > 1 ==> digits[0] != '0'
  {
    if i < 0 then
      var r := "-" + NatToString(-i);
      assert r[1..] == NatToString(-i);
      r
    else NatToString(i)
  }
}

=== FILE: wrappers.dfy ===
/** The `Option` and `Result` types shared by every module of the model. */
module Wrappers {

  /** A Python value that may be `None`, or a dictionary key that may be absent. */
  datatype Option<+T> = None | Some(value: T) {

    /** `d.get(key, default)`: the value when present, else the default. */
    function GetOr(default: T): T {
      match this
      case Some(v) => v
      case None => default
    }
  }

  /** The outcome of a computation that either returns a value or raises. */
  datatype Result<+R, +E> = Success(value: R) | Failure(error: E)
}
